=== FILE: README.md ===
# robotlib command framework and utilities in Dafny

This project models the core of robotlib, a Kotlin library for FTC robots. It covers:

- **The class-based command framework of the java tree** (module `LegacyCommands`).
  - `Command` carries its lifecycle flags: initialized, running, completed, canceled and locked.
  - It also carries its requirement list and its parent group.
  - The subclasses are instant, timed, wait-for-children, `CommandGroup` and `ConditionalCommand`.
  - A `CommandGroup` holds a list of entries and a cursor. Its sequential entries run one at a time. Its parallel ("branch child") entries become active children that run beside the sequence.
  - When a command starts, the active children that share a subsystem with it are evicted.
  - A `ConditionalCommand` picks one of two branches when it is initialized, and starts that branch.
- **The interface-based framework of the kotlin tree.**
  - `SchedulerImpl` (module `Scheduling`) keeps the running set and the table of the subsystems each command holds. It ticks the running set and hands subsystems over, interrupting their holders.
  - `SequentialCommandGroup` and `ParallelCommandGroup` are the modules `SequentialGroups` and `ParallelGroups`.
  - Commands there are identities. What the scheduler and the groups do to them is the sequence of `start`/`periodic`/`end`/`interrupt` calls they make (module `CommandCalls`).
- **Utilities:**
  - `CircularBuffer`, the ring of doubles;
  - the library `Set`, a vector without duplicates;
  - `LinkedListElement`;
  - `MathUtil`: limit, the angle wrappers and clamp;
  - `Boundary` and its range check;
  - the input shaping of `RobotDriveBase`;
  - the gamepad `Debouncer` and `Toggle`.

**How the model is built.**
- Each source class whose fields change in place is a Dafny `class` with the same fields.
- The `Command` subclasses of the java tree are one class told apart by `kind`.
- The overridable methods a team writes are recorded as a trace of calls (`hooks`). Their answers (`isFinished`, `condition`) are fields.
- Exceptions are an `Outcome` value that every caller passes on, keeping what was changed before the throw.
- `Double` is `real`.
- A stopwatch reading is a parameter (`Debouncer.Get`) or a field (`Command.timerSeconds`).
- `Scheduler.add` of the java tree appends to `PendingStarts.added`.

**What the proofs establish.**
- A group stays valid through every operation. Valid means: the group owns the footprints of its commands, these footprints are pairwise disjoint, and each active child is a branch-child entry behind the cursor.
- After `cancelConflicts`, no active child shares a subsystem with the starting command. The survivors keep their order and are untouched. Each evicted child ends completed, not running, not initialized and not canceled, and its hook trace gains `interrupted` or `end` as `removed()` decides.
- The children loop keeps a selection of the children, in order, and ties each child's turn to what `run()` answered (`Turned`). A child canceled at its turn, because it was canceled already or its entry timed out while it ran, leaves with only the hooks of `removed()`. Any other child gains `initialize` on its first turn and then `execute`. It stays exactly when `run()` answered true; for a team-written command, that is when it did not report itself finished. Otherwise it gains `end` as it is removed. A child that stays is not canceled. A child that leaves is completed, not running and not initialized. The turn of the sequential command at the cursor is tied to `run()` in the same way.
- Ending or interrupting a group evicts the sequential command at the cursor and every active child, each of them cancelled and then removed.
- The scheduler keeps every subsystem held by at most one command.
- The angle wrappers return the unique representative of the input in their window.

## Model

| member | source | states |
|---|---|---|
| LegacyCommands.EntryTimedOut | src/main/java/com/jdroids/robotlib/command/CommandGroup.kt:350-357 | an entry can only time out if it has a timeout and its command's timer was started |
| LegacyCommands.Command.constructor | src/main/java/com/jdroids/robotlib/command/Command.kt:79-93 | a new command is valid, unlocked, interruptible, not running or completed, with no requirements and no parent |
| LegacyCommands.Command.WithBranches | src/main/kotlin/com/jdroids/robotlib/command/ConditionalCommand.kt:34-37 | a conditional owns both branches, whose footprints are disjoint, and has chosen nothing yet |
| LegacyCommands.Command.WithTimeout | src/main/java/com/jdroids/robotlib/command/Command.kt:88-93 | a negative timeout is refused with IllegalArgument and no command; otherwise a fresh valid command with that timeout |
| LegacyCommands.Command.SetTimeout | src/main/java/com/jdroids/robotlib/command/Command.kt:101-107 | refused exactly when negative, and then the timeout is unchanged; otherwise it becomes the argument |
| LegacyCommands.Command.TimeSinceInitialized | src/main/java/com/jdroids/robotlib/command/Command.kt:116 | zero unless the timer was started, the stopwatch reading otherwise |
| LegacyCommands.Command.IsTimedOut | src/main/java/com/jdroids/robotlib/command/Command.kt:254 | never without a timeout; with the timer not started, true exactly for a zero timeout |
| LegacyCommands.Command.Validate | src/main/java/com/jdroids/robotlib/command/Command.kt:273-278 | Ok exactly when unlocked, IllegalUseOfCommand otherwise |
| LegacyCommands.Command.LockChanges | src/main/java/com/jdroids/robotlib/command/Command.kt:268-270 | the command is locked afterwards |
| LegacyCommands.Command.Requires | src/main/java/com/jdroids/robotlib/command/Command.kt:129-132 | a locked command refuses and keeps its requirements; otherwise the subsystem is inserted once, at the end if new |
| LegacyCommands.Command.ClearRequirements | src/main/java/com/jdroids/robotlib/command/Command.kt:308-310 | no requirement is left |
| LegacyCommands.Command.SetParent | src/main/java/com/jdroids/robotlib/command/Command.kt:287-294 | a parented command refuses and keeps its parent and lock; otherwise it gets the parent and is locked |
| LegacyCommands.Command.Start | src/main/java/com/jdroids/robotlib/command/Command.kt:321-329 | always locks; a parented command is refused and nothing is scheduled; otherwise exactly this command is appended to the scheduler queue and it is not completed |
| LegacyCommands.Command.StartRunning | src/main/java/com/jdroids/robotlib/command/Command.kt:342-345 | running, with the timer flag cleared |
| LegacyCommands.Command.IsFinished | src/main/kotlin/com/jdroids/robotlib/command/ConditionalCommand.kt:86-88 | per kind: instant always; timed iff timed out; wait-for-children iff it has a parent group and that group has no active children, so without a group it answers false, as the code does (WaitForChildren.kt:12), although the class documentation says it then finishes immediately (WaitForChildren.kt:4-6); group iff past the last entry with no children (CommandGroup.kt:288); conditional iff nothing chosen or the choice completed |
| LegacyCommands.Command.IsInterruptible | src/main/java/com/jdroids/robotlib/command/CommandGroup.kt:305-324 | another kind is interruptible exactly when its own flag is set; a group is interruptible exactly when its own flag is set, the current sequential command (if the cursor is on one) is interruptible, and every active child is |
| LegacyCommands.Command.CancelShadowMethod | src/main/kotlin/com/jdroids/robotlib/command/ConditionalCommand.kt:78-84 | a running command becomes canceled, after a conditional cancels its running choice; only the canceled flag changes; it succeeds exactly when no running choice down the chain of conditionals has a parent (`CancelsCleanly`), so a plain command always succeeds |
| LegacyCommands.Command.Cancel | src/main/java/com/jdroids/robotlib/command/Command.kt:369-382 | refused inside a group; otherwise canceled exactly when it was running or already canceled; it succeeds exactly when the command has no parent and `CancelsCleanly` holds |
| LegacyCommands.Command.RemovalHooks | src/main/java/com/jdroids/robotlib/command/Command.kt:139-148 | no hook if never initialized; `interrupted` first when canceled; just `end` otherwise |
| LegacyCommands.Command.Removed | src/main/java/com/jdroids/robotlib/command/Command.kt:138-153 | on success the command ends up completed, not running, not canceled, not initialized, and the hooks called are exactly RemovalHooks; a plain command (neither group nor conditional) and a group of plain commands always succeed; a conditional succeeds exactly when it was not initialized, was not canceled, has no running choice, or its running choice has no parent and cancels cleanly |
| LegacyCommands.Command.RecordHook | src/main/java/com/jdroids/robotlib/command/Command.kt:169-172 | the trace of team-written calls gains exactly this call at its end, and the command stays valid |
| LegacyCommands.Command.MarkCompleted | src/main/java/com/jdroids/robotlib/command/Command.kt:149-152 | the command is completed, not running, not canceled and not initialized, and stays valid |
| LegacyCommands.Command.InterruptedShadowMethod | src/main/kotlin/com/jdroids/robotlib/command/ConditionalCommand.kt:90-96 | a group ends its commands: the sequential command at the cursor (when the cursor is on an entry) and every old active child end evicted, and no children are left; a conditional cancels its running choice and then calls `end` once; other kinds do nothing; a group of plain commands always succeeds; a conditional succeeds exactly when its running choice, if any, has no parent and cancels cleanly |
| LegacyCommands.Command.EndShadowMethod | src/main/java/com/jdroids/robotlib/command/CommandGroup.kt:259-274 | a group keeps its flags and cursor; the sequential command at the cursor (when the cursor is on an entry) and every old active child end evicted (cancelled and removed: completed, reset, not canceled, with `interrupted` or `end` recorded as `removed()` decides), and no active child remains; other kinds change nothing; a group of plain commands always succeeds |
| LegacyCommands.Command.EndGroup | src/main/java/com/jdroids/robotlib/command/CommandGroup.kt:259-274 | `endShadowMethod()` of a group: its flags and cursor are kept, the sequential command at the cursor (when the cursor is on an entry) and every old active child end evicted, and no active child remains; it always succeeds for a group of plain commands |
| LegacyCommands.Command.EvictChildren | src/main/java/com/jdroids/robotlib/command/CommandGroup.kt:266-272 | each active child, in order, is cancelled and removed and ends evicted; the group itself and the footprint it spares (that of the command at the cursor) are untouched; it always succeeds for a group of plain commands |
| LegacyCommands.Command.Evict | src/main/java/com/jdroids/robotlib/command/CommandGroup.kt:260-264 | the command of the entry ends evicted: completed, not running, not initialized and not canceled, with `interrupted` (if it was canceled or running) or `end` appended to its hooks once it had been initialized; the group is unchanged; it always succeeds for a plain command |
| LegacyCommands.Command.EvictChild | src/main/java/com/jdroids/robotlib/command/CommandGroup.kt:269-271 | the child ends up evicted: completed, not running, not initialized and not canceled, with `interrupted` (if it was canceled or running) or `end` appended to its hooks once it had been initialized; no command's requirements change; it always succeeds for a plain child |
| LegacyCommands.Command.RequiresAnyOf | src/main/java/com/jdroids/robotlib/command/CommandGroup.kt:331-341 | true exactly when the command requires one of the subsystems |
| LegacyCommands.Command.ResolveChild | src/main/java/com/jdroids/robotlib/command/CommandGroup.kt:328-343 | one step of the walk: the child is dropped exactly when it conflicts, and the decided prefix holds no conflict; a dropped child is evicted, a kept one is untouched; it always succeeds for a group of plain commands |
| LegacyCommands.Command.DropConflict | src/main/java/com/jdroids/robotlib/command/CommandGroup.kt:336-338 | the conflicting child is evicted (completed, reset, not canceled, with its removal hooks) and only it leaves `children`; it always succeeds for a plain child |
| LegacyCommands.Command.CancelConflictsFrom | src/main/java/com/jdroids/robotlib/command/CommandGroup.kt:326-345 | the rest of the walk leaves the selection of the starting children by their verdicts, none of them conflicting; the children already decided are untouched, and each later one is evicted if it conflicts and untouched otherwise; it always succeeds for a group of plain commands |
| LegacyCommands.Command.CancelConflicts | src/main/java/com/jdroids/robotlib/command/CommandGroup.kt:326-345 | the children that stay are exactly the old children sharing no subsystem with the command, in their order, and none of them conflicts; each old child that shared a subsystem is evicted (completed, reset, not canceled, with `interrupted` or `end` recorded as `removed()` decides), and each other one is untouched, as is the command itself; it always succeeds for a group of plain commands |
| LegacyCommands.Command.RunEntry | src/main/java/com/jdroids/robotlib/command/CommandGroup.kt:196-202 | after a successful turn the command is canceled exactly when it was canceled before, or its entry had timed out while it ran; it is kept exactly when it is then neither canceled nor finished (`run()` answered true); a canceled one gained no hook, any other was initialized if it was not yet and gained `initialize` (first turn only) and then `execute`; a command canceled before its turn, or whose turn failed, is not kept; its team-written finish flag is untouched; the turn of a plain command always succeeds, and its requirements are unchanged |
| LegacyCommands.Command.RemoveEntry | src/main/java/com/jdroids/robotlib/command/CommandGroup.kt:204 | `removed()`: the command ends completed, not running, not initialized and not canceled, its hooks gaining `interrupted` (then `end` for a conditional) if it was canceled or `end` otherwise, and nothing if it was never initialized; it always succeeds for a plain command, whose requirements are unchanged |
| LegacyCommands.Command.StartEntry | src/main/java/com/jdroids/robotlib/command/CommandGroup.kt:225 | `startRunning()` on the entry's command: it is running with its timer cleared, so its entry cannot count as timed out, and the group is unchanged |
| LegacyCommands.Command.StartSequential | src/main/java/com/jdroids/robotlib/command/CommandGroup.kt:224-227 | on the first turn of a sequential command, the group stays valid with its flags and cursor and no active child left shares a subsystem with the command; the command is running with its timer cleared, and its canceled, initialized and finish flags and its hooks are as before; it always succeeds for a group of plain commands |
| LegacyCommands.Command.EvictConflicts | src/main/java/com/jdroids/robotlib/command/CommandGroup.kt:236 | for a branch child the cursor just passed, the group stays valid with its flags and cursor, every active child lies before it, and none of them shares a subsystem with it; it always succeeds for a group of plain commands |
| LegacyCommands.Command.StartPeer | src/main/java/com/jdroids/robotlib/command/CommandGroup.kt:230-233 | starting a branch peer always fails with IllegalUseOfCommand and schedules nothing |
| LegacyCommands.Command.RunChildrenFrom | src/main/java/com/jdroids/robotlib/command/CommandGroup.kt:244-256 | the rest of the children loop leaves exactly the children whose turn kept them, in order; each child from the current position on had the turn `Turned` describes, from its state before the loop; it always succeeds when every child from the current position on is plain |
| LegacyCommands.Command.ChildTurn | src/main/java/com/jdroids/robotlib/command/CommandGroup.kt:246-255 | a kept child stays; any other leaves `children`, and only it does; the child had the turn `Turned` describes, from its state before the turn; the commands of the other children are untouched; it always succeeds when the children from this one on are plain, and those after it stay plain |
| LegacyCommands.Command.RunChild | src/main/java/com/jdroids/robotlib/command/CommandGroup.kt:248-254 | one turn of the child (`run()`, and `removed()` once it answers false): a kept child stays in place, any other leaves `children`; the turn is the one `Turned` describes: a child canceled at its turn (canceled already, or timed out while running) leaves with only the hooks of `removed()`; any other gains `initialize` (first turn) and `execute`, stays exactly when `run()` answered true (a team-written command: when it did not report itself finished), and otherwise gains `end` on removal; it always succeeds for a plain child |
| LegacyCommands.Command.DropChild | src/main/java/com/jdroids/robotlib/command/CommandGroup.kt:252-253 | `removed()` on the child, which leaves `children` while the others keep their order; it ends completed, not running, not initialized and not canceled, with the hooks `removed()` calls appended; it always succeeds for a plain child |
| LegacyCommands.Command.RunChildren | src/main/java/com/jdroids/robotlib/command/CommandGroup.kt:243-256 | the children afterwards are the selection of the old children by `kept`, in their order, and each old child had the turn `Turned` describes from its state before the loop: a child canceled at its turn leaves with only the hooks of `removed()`; any other gains `initialize` (first turn) and `execute`, is kept exactly when `run()` answered true, and otherwise gains `end`; a kept child is not canceled, a child that left is completed and reset; flags and cursor unchanged; it always succeeds for a group of plain commands |
| LegacyCommands.Command.AdvanceSequence | src/main/java/com/jdroids/robotlib/command/CommandGroup.kt:195-241 | the cursor only moves forward; if it stops before the end, it is on a sequential command that is not finished; no branch peer was passed; it always succeeds for a group of plain commands with no branch-peer entry |
| LegacyCommands.Command.SequenceTurn | src/main/java/com/jdroids/robotlib/command/CommandGroup.kt:196-228 | the cursor moves by one exactly when the sequential command's turn removed it (then it is completed and reset); otherwise it is not finished; the turn is the one `Turned` describes, from the command's state before the turn, except that on the first turn the command is started first, so a timeout cannot cancel it; on the first turn no active child shares a subsystem with the command (`cancelConflicts`); it always succeeds for a group of plain commands |
| LegacyCommands.Command.RunSequential | src/main/java/com/jdroids/robotlib/command/CommandGroup.kt:196-205 | the turn of the started sequential command at the cursor: it is the one `Turned` describes, and the cursor moves past the command exactly when that turn removed it; otherwise the command is not finished; the children and every requirement list are unchanged; it always succeeds for a group of plain commands |
| LegacyCommands.Command.FinishSequential | src/main/java/com/jdroids/robotlib/command/CommandGroup.kt:204-205 | the finished command is removed (completed, reset, not canceled, with the hooks `removed()` calls appended) and the cursor moves past it; it always succeeds for a plain command, whose requirements are unchanged |
| LegacyCommands.Command.PassChild | src/main/java/com/jdroids/robotlib/command/CommandGroup.kt:234-239 | the cursor moves by one, and the branch child becomes the last active child and is running; no other active child shares a subsystem with the branch child (`cancelConflicts`); it always succeeds for a group of plain commands |
| LegacyCommands.Command.JoinChild | src/main/java/com/jdroids/robotlib/command/CommandGroup.kt:237-238 | the entry is running and appended to `children` |
| LegacyCommands.Command.AppendChild | src/main/java/com/jdroids/robotlib/command/CommandGroup.kt:238 | the entry becomes the last active child, the others keep their order, and the group stays valid |
| LegacyCommands.Command.RemoveChildAt | src/main/java/com/jdroids/robotlib/command/CommandGroup.kt:253 | the child at the position leaves, the others keep their order, and the group stays valid |
| LegacyCommands.Command.ForgetChildren | src/main/java/com/jdroids/robotlib/command/CommandGroup.kt:273 | no active child remains and the group stays valid |
| LegacyCommands.Command.SetCursor | src/main/java/com/jdroids/robotlib/command/CommandGroup.kt:182 | the cursor is at the given position, between -1 and the number of entries, and the group stays valid |
| LegacyCommands.Command.ExecuteShadowMethod | src/main/java/com/jdroids/robotlib/command/CommandGroup.kt:185-257 | a group's cursor moves forward within bounds, and stops only on a sequential entry or at the end; other kinds change nothing; a group of plain commands with no branch-peer entry always succeeds |
| LegacyCommands.Command.InitializeShadowMethod | src/main/kotlin/com/jdroids/robotlib/command/ConditionalCommand.kt:60-76 | a group puts its cursor before the first entry (CommandGroup.kt:181-183); a conditional chooses by its condition, clears the chosen branch's requirements, starts it and schedules exactly it, and leaves the other branch alone |
| LegacyCommands.Command.Choose | src/main/kotlin/com/jdroids/robotlib/command/ConditionalCommand.kt:61-64 | the conditional's choice is the given branch, or none, and it stays valid |
| LegacyCommands.Command.StartChosen | src/main/kotlin/com/jdroids/robotlib/command/ConditionalCommand.kt:66-74 | the chosen command loses its requirements and is locked; if it has no parent it is appended to the scheduler queue and is not completed, otherwise the start fails with IllegalUseOfCommand and nothing is scheduled |
| LegacyCommands.Command.Run | src/main/java/com/jdroids/robotlib/command/Command.kt:161-174 | a canceled command answers false and changes nothing; otherwise it is initialized, `initialize` is called only on the first turn, `execute` on every turn, and it answers "not finished"; a plain command and a group of plain commands with no branch-peer entry always succeed; a conditional fails exactly on its first turn when it is not canceled and its choice has a parent |
| LegacyCommands.Command.MarkInitialized | src/main/java/com/jdroids/robotlib/command/Command.kt:166-167 | the command is initialized and its stopwatch reads zero, and it stays valid |
| LegacyCommands.Command.RequireEach | src/main/java/com/jdroids/robotlib/command/CommandGroup.kt:63-67 | a locked command refuses a non-empty list and changes nothing; otherwise every subsystem is inserted, in order |
| LegacyCommands.Command.RequireBranches | src/main/kotlin/com/jdroids/robotlib/command/ConditionalCommand.kt:39-51 | an unlocked conditional then requires every subsystem of both branches, the `onTrue` ones first |
| LegacyCommands.Command.Append | src/main/java/com/jdroids/robotlib/command/CommandGroup.kt:59-67 | succeeds exactly for an unparented command: it becomes the last entry, is parented and locked, and the group requires all its subsystems |
| LegacyCommands.Command.Enroll | src/main/java/com/jdroids/robotlib/command/CommandGroup.kt:61 | the entry is appended and the group takes over the command's footprint, staying valid |
| LegacyCommands.Command.AddSequential | src/main/java/com/jdroids/robotlib/command/CommandGroup.kt:55-68 | Ok exactly for an unlocked group and an unparented command; a locked group changes nothing; on success the group requires every subsystem of the command |
| LegacyCommands.Command.AddSequentialWithTimeout | src/main/java/com/jdroids/robotlib/command/CommandGroup.kt:88-105 | as AddSequential, and a negative timeout is refused with IllegalArgument, changing nothing |
| LegacyCommands.Command.AddParallel | src/main/java/com/jdroids/robotlib/command/CommandGroup.kt:126-139 | as AddSequential, with a branch-child entry |
| LegacyCommands.Command.AddParallelWithTimeout | src/main/java/com/jdroids/robotlib/command/CommandGroup.kt:162-179 | as AddSequentialWithTimeout, with a branch-child entry |
| UtilSet.Insert | src/main/kotlin/com/jdroids/robotlib/util/Set.kt:13-18 | the result contains the element, extends the old list, and is the old list exactly when the element was present |
| UtilSet.InsertKeepsNoDuplicates | src/main/kotlin/com/jdroids/robotlib/util/Set.kt:13-18 | inserting keeps the list free of duplicates |
| UtilSet.InsertAllExtends | src/main/kotlin/com/jdroids/robotlib/util/Set.kt:20-25 | adding a set keeps the old elements as a prefix, in order |
| UtilSet.InsertAllIsUnion | src/main/kotlin/com/jdroids/robotlib/util/Set.kt:20-25 | adding a set yields the union of the elements |
| UtilSet.InsertAllContains | src/main/kotlin/com/jdroids/robotlib/util/Set.kt:20-25 | an element is in the result iff it is in either list |
| UtilSet.InsertAllKeepsNoDuplicates | src/main/kotlin/com/jdroids/robotlib/util/Set.kt:20-25 | adding a set keeps the list free of duplicates |
| UtilSet.Set.Add | src/main/kotlin/com/jdroids/robotlib/util/Set.kt:13-18 | the vector becomes Insert of the old one and stays duplicate-free |
| UtilSet.Set.AddAll | src/main/kotlin/com/jdroids/robotlib/util/Set.kt:20-25 | the vector becomes InsertAll of the old one and the other set's elements |
| UtilSet.Set.Contains | src/main/kotlin/com/jdroids/robotlib/util/Set.kt:31 | true exactly when the element occurs in the vector |
| UtilSet.Set.GetElements | src/main/kotlin/com/jdroids/robotlib/util/Set.kt:33 | every enumerated element is contained, and a valid set enumerates no element twice |
| UtilSet.Set.Clear | src/main/kotlin/com/jdroids/robotlib/util/Set.kt:27-29 | the vector is empty |
| Scheduling.ClaimIsExclusive | src/main/kotlin/com/jdroids/robotlib/command/SchedulerImpl.kt:77-98 | after a claim the command holds the subsystem, no other command does, other surviving entries are unchanged, and exclusivity is kept |
| Scheduling.ClearKeepsExclusive | src/main/kotlin/com/jdroids/robotlib/command/SchedulerImpl.kt:107-109 | dropping an entry keeps exclusivity |
| Scheduling.SchedulerImpl.Run | src/main/kotlin/com/jdroids/robotlib/command/SchedulerImpl.kt:43-46 | the command is started once and joins the running set |
| Scheduling.SchedulerImpl.Periodic | src/main/kotlin/com/jdroids/robotlib/command/SchedulerImpl.kt:52-64 | every running command gets one call: `end` if it was completed when visited (its entry is then dropped) and `periodic` otherwise; the commands completed when the sweep runs leave the running set, which may include commands that got `periodic`: such a command leaves with no `end` call and keeps its requirement entry; exclusivity is kept |
| Scheduling.SchedulerImpl.Requires | src/main/kotlin/com/jdroids/robotlib/command/SchedulerImpl.kt:76-99 | throws exactly when an uninterruptible command holds the subsystem, leaving only interrupted holders deleted; otherwise every holder is interrupted once and the table becomes the claim; the running set never changes |
| Scheduling.SchedulerImpl.ClearSubsystemRequirements | src/main/kotlin/com/jdroids/robotlib/command/SchedulerImpl.kt:107-109 | the command's entry is dropped and exclusivity is kept |
| Scheduling.CompletedCommandIsForgotten | src/test/kotlin/com/jdroids/robotlib/command/SchedulerTest.kt:24-48 | a completed command is ended on one tick and receives no call on the next |
| Scheduling.InterruptedCommandKeepsRunning | src/test/kotlin/com/jdroids/robotlib/command/SchedulerTest.kt:51-78 | contrary to the test, an interrupted holder stays in the running set and still gets `periodic` on the next tick, because its entry is deleted before the running-set sweep looks it up (SchedulerImpl.kt:77-92) |
| Scheduling.FinishedDuringTickIsNeverEnded | src/main/kotlin/com/jdroids/robotlib/command/SchedulerImpl.kt:52-66 | a command that completes during the tick in which it got `periodic` is swept from the running set and never gets `end`, and it keeps holding its subsystem |
| SequentialGroups.SequentialCommandGroup.Start | src/main/kotlin/com/jdroids/robotlib/command/SequentialCommandGroup.kt:22 | starts only the first command; an empty group fails with an index error |
| SequentialGroups.SequentialCommandGroup.Periodic | src/main/kotlin/com/jdroids/robotlib/command/SequentialCommandGroup.kt:27-43 | a completed group does nothing; a running current command gets `periodic`; a completed one is ended, the cursor moves by one and the next command is started |
| SequentialGroups.SequentialCommandGroup.End | src/main/kotlin/com/jdroids/robotlib/command/SequentialCommandGroup.kt:48 | ends the current command; a completed group fails with an index error |
| SequentialGroups.RunToCompletion | src/main/kotlin/com/jdroids/robotlib/command/SequentialCommandGroup.kt:17-43 | commands that complete at once are started and ended strictly in order, and the group reports itself completed after exactly one `periodic` tick per command |
| ParallelGroups.ParallelCommandGroup.IsInterruptible | src/main/kotlin/com/jdroids/robotlib/command/ParallelCommandGroup.kt:16-17 | true iff every command is interruptible |
| ParallelGroups.ParallelCommandGroup.IsCompleted | src/main/kotlin/com/jdroids/robotlib/command/ParallelCommandGroup.kt:24-25 | true iff every command is completed |
| ParallelGroups.ParallelCommandGroup.ForEach | src/main/kotlin/com/jdroids/robotlib/command/ParallelCommandGroup.kt:31-48 | one call of the given kind on each command, in order |
| ParallelGroups.ParallelCommandGroup.Start | src/main/kotlin/com/jdroids/robotlib/command/ParallelCommandGroup.kt:31 | `start` on every command once, in order |
| ParallelGroups.ParallelCommandGroup.Periodic | src/main/kotlin/com/jdroids/robotlib/command/ParallelCommandGroup.kt:37 | `periodic` on every command, completed ones included, and no `end` |
| ParallelGroups.ParallelCommandGroup.End | src/main/kotlin/com/jdroids/robotlib/command/ParallelCommandGroup.kt:42 | `end` on every command once, in order |
| ParallelGroups.ParallelCommandGroup.Interrupt | src/main/kotlin/com/jdroids/robotlib/command/ParallelCommandGroup.kt:48 | `interrupt` on every command once, in order |
| ParallelGroups.CompletedChildStillTicks | src/test/kotlin/com/jdroids/robotlib/command/CommandGroupTest.kt:31-62 | contrary to the test, a completed command of a parallel group still gets `periodic` and is not ended (ParallelCommandGroup.kt:37) |
| CircularBuffers.KotlinRem | src/main/kotlin/com/jdroids/robotlib/util/CircularBuffer.kt:119 | Kotlin's remainder: it lies strictly between `-n` and `n`, differs from the dividend by a multiple of `n`, equals the Euclidean one for a non-negative dividend, and is negative exactly for a negative dividend that `n` does not divide |
| CircularBuffers.CircularBuffer.Create | src/main/kotlin/com/jdroids/robotlib/util/CircularBuffer.kt:12-15 | a negative size fails with NegativeArraySize; otherwise a fresh zero-filled array of that capacity, empty, front at zero |
| CircularBuffers.CircularBuffer.Get | src/main/kotlin/com/jdroids/robotlib/util/CircularBuffer.kt:119 | a zero-capacity buffer fails with a division by zero; otherwise it fails with an index error exactly when `front + index` is negative and not a multiple of the capacity; a non-negative index reads the slot that many places after the front, and every success reads some slot |
| CircularBuffers.CircularBuffer.GetFirst | src/main/kotlin/com/jdroids/robotlib/util/CircularBuffer.kt:29 | reads the front slot, failing only on a zero-capacity buffer |
| CircularBuffers.CircularBuffer.GetLast | src/main/kotlin/com/jdroids/robotlib/util/CircularBuffer.kt:36-39 | 0.0 when empty, the slot `length - 1` after the front otherwise |
| CircularBuffers.CircularBuffer.AddFirst | src/main/kotlin/com/jdroids/robotlib/util/CircularBuffer.kt:45-58 | a zero-capacity buffer is unchanged; otherwise front advances by one, the value is written there and read back by `getFirst`, and length grows up to the capacity |
| CircularBuffers.CircularBuffer.RemoveFirst | src/main/kotlin/com/jdroids/robotlib/util/CircularBuffer.kt:65-74 | returns the old front value, advances front and decrements length; 0.0 and no change on zero capacity |
| CircularBuffers.CircularBuffer.RemoveLast | src/main/kotlin/com/jdroids/robotlib/util/CircularBuffer.kt:79-87 | decrements length and returns the old last value; 0.0 and no change on zero capacity |
| CircularBuffers.CircularBuffer.Resize | src/main/kotlin/com/jdroids/robotlib/util/CircularBuffer.kt:95-103 | a negative size fails and changes nothing; otherwise the first `min(length, size)` elements keep their order from a new front at zero, and the rest is zero |
| CircularBuffers.CircularBuffer.Clear | src/main/kotlin/com/jdroids/robotlib/util/CircularBuffer.kt:108-112 | a zero-filled array of the same capacity, empty |
| CircularBuffers.PushTwiceThenRead | src/main/kotlin/com/jdroids/robotlib/util/CircularBuffer.kt:45-58 | after two `addFirst` calls, `get(0)` is the second value, `get(1)` an untouched zero and `get(capacity - 1)` the first |
| LinkedLists.LinkedListElement.constructor | src/main/kotlin/com/jdroids/robotlib/command/LinkedListElement.kt:7-9 | a detached node with no payload |
| LinkedLists.LinkedListElement.GetData | src/main/kotlin/com/jdroids/robotlib/command/LinkedListElement.kt:15-17 | the node's payload |
| LinkedLists.LinkedListElement.SetData | src/main/kotlin/com/jdroids/robotlib/command/LinkedListElement.kt:11-13 | the payload is the new data; the links are unchanged |
| LinkedLists.LinkedListElement.Add | src/main/kotlin/com/jdroids/robotlib/command/LinkedListElement.kt:27-38 | the new node is spliced right after this one, both ways, and the old successor follows it |
| LinkedLists.LinkedListElement.Remove | src/main/kotlin/com/jdroids/robotlib/command/LinkedListElement.kt:40-59 | returns the old successor; the neighbours are linked to each other and this node is detached |
| LinkedLists.AppendAfterTail | src/main/kotlin/com/jdroids/robotlib/command/LinkedListElement.kt:27-31 | adding after a tail links a fresh node both ways as the new tail |
| LinkedLists.InsertThenRemove | src/main/kotlin/com/jdroids/robotlib/command/LinkedListElement.kt:27-59 | inserting a node between two linked nodes and removing it again restores their links |
| MathUtil.Abs | src/main/java/com/jdroids/robotlib/util/MathUtil.kt:10 | non-negative, and the value or its negation |
| MathUtil.Sign | src/main/java/com/jdroids/robotlib/util/MathUtil.kt:10 | `signum`: 1, -1 or 0 by the sign of the value |
| MathUtil.Limit | src/main/java/com/jdroids/robotlib/util/MathUtil.kt:9-10 | a value within the limit is unchanged; otherwise a non-zero value becomes the limit's magnitude, with the value's sign for a positive limit (the opposite sign for a negative one, LimitNegativeFlipsSign), and zero stays zero |
| MathUtil.LimitIdempotent | src/main/java/com/jdroids/robotlib/util/MathUtil.kt:9-10 | limiting twice is limiting once |
| MathUtil.LimitNegativeFlipsSign | src/main/java/com/jdroids/robotlib/util/MathUtil.kt:9-10 | a negative limit flips the sign of every non-zero value |
| MathUtil.Wrap | src/main/java/com/jdroids/robotlib/util/MathUtil.kt:126-172 | the result lies in the half-open window and differs from the angle by a whole number of periods |
| MathUtil.WrapCharacterized | src/main/java/com/jdroids/robotlib/util/MathUtil.kt:126-172 | Wrap is the only value in the window that differs from the angle by whole periods |
| MathUtil.WrapIdentity | src/main/java/com/jdroids/robotlib/util/MathUtil.kt:126-172 | an angle already in the window is returned unchanged |
| MathUtil.WrapPeriodic | src/main/java/com/jdroids/robotlib/util/MathUtil.kt:126-172 | adding whole periods does not change the result |
| MathUtil.BoundAngle | src/main/java/com/jdroids/robotlib/util/MathUtil.kt:126-136 | the two subtract/add loops compute Wrap |
| MathUtil.BoundAngle0To360Degrees | src/main/java/com/jdroids/robotlib/util/MathUtil.kt:126-136 | the result is in [0, 360), a whole number of turns from the angle, and the angle itself if already there |
| MathUtil.BoundAngleNeg180To180Degrees | src/main/java/com/jdroids/robotlib/util/MathUtil.kt:138-148 | the result is in [-180, 180), a whole number of turns from the angle, and the angle itself if already there |
| MathUtil.BoundAngle0To2PiRadians | src/main/java/com/jdroids/robotlib/util/MathUtil.kt:150-160 | the result is in [0, 2π), a whole number of turns from the angle, and the angle itself if already there |
| MathUtil.BoundAngleNegPiToPiRadians | src/main/java/com/jdroids/robotlib/util/MathUtil.kt:162-172 | the result is in [-π, π), a whole number of turns from the angle, and the angle itself if already there |
| MathUtil.GetDifferenceInAngleDegrees | src/main/java/com/jdroids/robotlib/util/MathUtil.kt:122-124 | the turn from `from` to `to`, in [-180, 180) |
| MathUtil.GetDifferenceInAngleRadians | src/main/java/com/jdroids/robotlib/util/MathUtil.kt:110-112 | the turn from `from` to `to`, in [-π, π) |
| KotlinMathUtil.Clamp | src/main/kotlin/com/jdroids/robotlib/util/MathUtil.kt:7 | within the bounds when they are ordered, the value itself inside them, the nearer bound outside, and `low` when the bounds are crossed |
| KotlinMathUtil.ClampIdempotent | src/main/kotlin/com/jdroids/robotlib/util/MathUtil.kt:7 | clamping twice is clamping once |
| Boundaries.MakeBoundary | src/main/kotlin/com/jdroids/robotlib/util/Boundary.kt:9-15 | refused exactly when lower exceeds upper; otherwise holds both ends |
| Boundaries.AssertWithin | src/main/java/com/jdroids/robotlib/util/BoundaryException.kt:18-31 | Ok exactly for a value between the bounds, both ends included |
| Boundaries.AssertWithinBounds | src/main/kotlin/com/jdroids/robotlib/util/Boundary.kt:28-32 | Ok exactly for a value between the boundary's ends, both included |
| Boundaries.BoundsAreInclusive | src/main/kotlin/com/jdroids/robotlib/util/Boundary.kt:9-32 | every constructed boundary admits both of its ends |
| DriveBase.Largest | src/main/java/com/jdroids/robotlib/drive/RobotDriveBase.kt:25-26 | a magnitude in the array that no other magnitude exceeds |
| DriveBase.NormalizedWithinUnit | src/main/java/com/jdroids/robotlib/drive/RobotDriveBase.kt:24-33 | after normalising, every speed has magnitude at most one |
| DriveBase.NormalizedLargestIsUnit | src/main/java/com/jdroids/robotlib/drive/RobotDriveBase.kt:24-33 | a speed of the largest magnitude (above one) becomes exactly 1 or -1 |
| DriveBase.NormalizedKeepsSmallSpeeds | src/main/java/com/jdroids/robotlib/drive/RobotDriveBase.kt:24-33 | speeds already within one are left as they are |
| DriveBase.DocumentedExample | src/main/java/com/jdroids/robotlib/drive/RobotDriveBase.kt:17-22 | [20, 5, 10, 15] normalises to [1, 0.25, 0.5, 0.75] |
| DriveBase.RobotDriveBase.ApplyDeadband | src/main/java/com/jdroids/robotlib/drive/RobotDriveBase.kt:7-8 | below the deadband (negatives included) is zero; otherwise unchanged |
| DriveBase.RobotDriveBase.Limit | src/main/java/com/jdroids/robotlib/drive/RobotDriveBase.kt:13-14 | within [-1, 1], unchanged there, and keeps the sign |
| DriveBase.RobotDriveBase.ScaleInputs | src/main/java/com/jdroids/robotlib/drive/RobotDriveBase.kt:35-36 | unchanged unless squaring, which gives the square and loses the sign |
| DriveBase.RobotDriveBase.CorrectInputs | src/main/java/com/jdroids/robotlib/drive/RobotDriveBase.kt:38 | zero or within [0.02, 1]: zero below 0.02 (all negatives), the value up to 1, and 1 above |
| DriveBase.RobotDriveBase.Normalize | src/main/java/com/jdroids/robotlib/drive/RobotDriveBase.kt:24-33 | an empty array fails and is unchanged; otherwise the array becomes Normalized of its old contents |
| Debouncers.QuietCallsKeepLatest | src/main/kotlin/com/jdroids/robotlib/gamepad/Debouncer.kt:25-34 | calls that report nothing keep the time of the last report |
| Debouncers.ReportsAreSpaced | src/main/kotlin/com/jdroids/robotlib/gamepad/Debouncer.kt:25-34 | two successive reported presses are more than `period` apart |
| Debouncers.Debouncer.constructor | src/main/kotlin/com/jdroids/robotlib/gamepad/Debouncer.kt:11-17 | the period is kept and the last report is at time zero |
| Debouncers.Debouncer.Get | src/main/kotlin/com/jdroids/robotlib/gamepad/Debouncer.kt:25-34 | reports exactly a pressed reading more than `period` after the last report, and then records its time |
| Toggles.Update | src/main/kotlin/com/jdroids/robotlib/gamepad/Toggle.kt:8-19 | a false reading changes nothing; a true one flips the switch and sets the latch, or clears a set latch |
| Toggles.FalseReadingsChangeNothing | src/main/kotlin/com/jdroids/robotlib/gamepad/Toggle.kt:8-19 | any run of false readings leaves the state, latch included, unchanged |
| Toggles.HeldButtonFlipsEveryOtherReading | src/main/kotlin/com/jdroids/robotlib/gamepad/Toggle.kt:8-19 | `n` true readings from a released latch flip the switch `(n + 1) / 2` times and leave the latch set iff `n` is odd |
| Toggles.Toggle.UpdateToggle | src/main/kotlin/com/jdroids/robotlib/gamepad/Toggle.kt:8-19 | the state becomes Update of the old state, and the switch position is returned |

## Left out

- Threads and `@Synchronized`: the model is single-threaded. `SchedulerImpl`'s hardware update thread, `register` and the subsystems' `periodic` calls are left out, and so is `PIDSubsystem`/`PIDCommand`.
- `Subsystem`, `RobotTemplate`, `StartCommand` and `CommandDsl` are not part of this model. A subsystem is an identity (`nat`).
- The java tree's `Scheduler` is not part of this model. Its `add` is an append to `PendingStarts.added`.
- `Double` is modelled as `real`: there is no rounding, no NaN and no infinity. `MathUtil`'s `atan`/`atan2`/`asin`/`acos` polynomials are left out for that reason. The `BoundAngle*` loops are modelled with exact arithmetic.
- Clocks: the stopwatch of `Command` is the field `timerSeconds`, and `startTiming` resets it to zero. The stopwatch of `Debouncer` is the parameter `now`, in the units `ElapsedTime.milliseconds()` returns, while `period` defaults to 0.25.
- Nothing in the java tree ever sets `isTimerStarted` to true (`startRunning` sets it to false, Command.kt:342-345). So `timeSinceInitialized` is always zero, a `TimedCommand` with a positive timeout never finishes, and an entry never times out. The model keeps the flag free, so both branches of every timeout test are covered.
- The methods a team overrides (`initialize`, `execute`, `end`, `interrupted`, `isFinished`, `condition`) have no body here. Their calls are recorded in `hooks`, and their answers are the fields `userFinished` and `conditionValue`.
- Ownership: the model requires that a command is added to at most one group and that footprints are disjoint. That rules out adding a group to itself or sharing a command between a group and a conditional, which the source does not prevent.
- The conditional's `requireAll` is never called in the source. `RequireBranches` models it on its own.
- The add methods never create a branch-peer entry. `AdvanceSequence` still handles one, as the source does.
- `cancelConflicts` and the two loops of `executeShadowMethod` are recursive methods over the position rather than `while` loops. They visit the same positions in the same order and make the same calls.
- `LinkedListElement`: `Add` and `Remove` state the links of the nodes they touch when these are distinct. Lists where a node is its own neighbour are not characterised. `getPrevious`/`getNext` are plain field reads.
- `CircularBuffer.moduloDec` is never called and is left out. `Size()` only returns `length` and carries no contract of its own.
- `SequentialCommandGroup.isCompleted` is a plain predicate with no contract.
- LegacyCommands.Command.AdvanceSequence: does not promise that passed branch children stay active or that passed sequential commands stay completed, because later evictions may act on them. It also does not carry to the end of the walk which turn each sequential command had (its hooks and its answer), or that no active child conflicts with the command the cursor stops on. SequenceTurn and PassChild state these for each step, including that no active child shares a subsystem with the command just started; which children stay and how the evicted ones end is stated by CancelConflicts, which those steps call.
- LegacyCommands.Command.ExecuteShadowMethod: states only how the cursor moves. The turn of the sequential command (SequenceTurn) and of each active child (RunChildren) are stated by those members and are not restated for the whole call.
- LegacyCommands.Command.RunChildren: states each child's own flags and hooks, but not what cancelling a timed-out conditional child does to its chosen branch. That branch is a separate command, and Cancel states what happens to it.
- LegacyCommands.Command.StartSequential: states that no remaining child conflicts, but not which children stay or what happened to the evicted ones; CancelConflicts, which it calls, states both.
- LegacyCommands.Command.EvictConflicts: states that no remaining child conflicts, but not which children stay; CancelConflicts, which it calls, states both.
- Kotlin's `Int` is modelled as an unbounded integer: the index arithmetic of `CircularBuffer` (`front + index`, `front + 1`), its sizes and the group cursor do not wrap around at 32 bits.
- When a call succeeds is stated completely for a plain command (neither a group nor a conditional: it always succeeds) and for a conditional (`Cancel`, `CancelShadowMethod`, `Removed`, `Run`: exactly when no choice down the chain has a parent). For a group it is stated only when every entry holds a plain command and, where the cursor walks, no entry is a branch peer. A nested group or conditional can throw from its own shadow methods, and whether it does depends on the whole nested structure, which the model does not summarise for groups. The members below carry the partial promise.
- LegacyCommands.Command.EndGroup: promises success only for a group whose entries all hold plain commands; with a nested group or conditional entry, success is not promised.
- LegacyCommands.Command.EvictChildren: promises success only for a group whose entries all hold plain commands; with a nested group or conditional entry, success is not promised.
- LegacyCommands.Command.ResolveChild: promises success only for a group whose entries all hold plain commands; with a nested group or conditional entry, success is not promised.
- LegacyCommands.Command.CancelConflictsFrom: promises success only for a group whose entries all hold plain commands; with a nested group or conditional entry, success is not promised.
- LegacyCommands.Command.CancelConflicts: promises success only for a group whose entries all hold plain commands; with a nested group or conditional entry, success is not promised.
- LegacyCommands.Command.StartSequential: promises success only for a group whose entries all hold plain commands; with a nested group or conditional entry, success is not promised.
- LegacyCommands.Command.EvictConflicts: promises success only for a group whose entries all hold plain commands; with a nested group or conditional entry, success is not promised.
- LegacyCommands.Command.RunChildren: promises success only for a group whose entries all hold plain commands; with a nested group or conditional entry, success is not promised.
- LegacyCommands.Command.AdvanceSequence: promises success only for a group whose entries all hold plain commands and none is a branch peer; with a nested group or conditional entry, success is not promised.
- LegacyCommands.Command.SequenceTurn: promises success only for a group whose entries all hold plain commands; with a nested group or conditional entry, success is not promised.
- LegacyCommands.Command.PassChild: promises success only for a group whose entries all hold plain commands; with a nested group or conditional entry, success is not promised.
- LegacyCommands.Command.RunSequential: promises success only for a group whose entries all hold plain commands; with a nested group or conditional entry, success is not promised.
- LegacyCommands.Command.ExecuteShadowMethod: promises success only for a group whose entries all hold plain commands and none is a branch peer; with a nested group or conditional entry, success is not promised.
- LegacyCommands.Command.EndShadowMethod: promises success only for a group whose entries all hold plain commands; with a nested group or conditional entry, success is not promised.
- LegacyCommands.Command.InterruptedShadowMethod: promises success only for a group whose entries all hold plain commands; with a nested group or conditional entry, success is not promised.
- LegacyCommands.Command.Removed: promises success only for a group whose entries all hold plain commands; with a nested group or conditional entry, success is not promised.
- LegacyCommands.Command.Run: promises success only for a group whose entries all hold plain commands and none is a branch peer; with a nested group or conditional entry, success is not promised.
- LegacyCommands.Command.Evict: promises success only when the command it acts on is plain; for a nested group or conditional, success is not promised.
- LegacyCommands.Command.EvictChild: promises success only when the command it acts on is plain; for a nested group or conditional, success is not promised.
- LegacyCommands.Command.DropConflict: promises success only when the command it acts on is plain; for a nested group or conditional, success is not promised.
- LegacyCommands.Command.RunChild: promises success only when the command it acts on is plain; for a nested group or conditional, success is not promised.
- LegacyCommands.Command.DropChild: promises success only when the command it acts on is plain; for a nested group or conditional, success is not promised.
- LegacyCommands.Command.RunEntry: promises success only when the command it acts on is plain; for a nested group or conditional, success is not promised.
- LegacyCommands.Command.RemoveEntry: promises success only when the command it acts on is plain; for a nested group or conditional, success is not promised.
- LegacyCommands.Command.FinishSequential: promises success only when the command it acts on is plain; for a nested group or conditional, success is not promised.
- LegacyCommands.Command.RunChildrenFrom: promises success only when every child from the current position on is plain.
- LegacyCommands.Command.ChildTurn: promises success only when every child from the current position on is plain.

=== FILE: boundary.dfy ===
/**
 * `Boundary`: an inclusive interval of doubles whose constructor refuses a
 * lower bound above the upper one, and `BoundaryException.assertWithinBounds`,
 * which refuses a value outside given bounds. The java tree's
 * `BoundaryException.assertWithinBounds(value, lower, upper)` is the same test
 * on bare bounds, so both are modelled by `AssertWithin`.
 */
module Boundaries {

  /** A thrown `BoundaryException`, or normal completion. */
  datatype Outcome = Ok | BoundaryException

  datatype Bounds = Bounds(lower: real, upper: real)

  /** A constructed `Boundary`: the `init` check has passed. */
  type Boundary = b: Bounds | b.lower <= b.upper witness Bounds(0.0, 0.0)

  datatype Constructed = Built(boundary: Boundary) | Refused

  /** The data-class constructor with its `init` check. */
  function MakeBoundary(lower: real, upper: real): (r: Constructed)
    ensures r.Refused? <==> lower > upper
    ensures r.Built? ==> r.boundary.lower == lower && r.boundary.upper == upper
  {
    if lower > upper then Refused else Built(Bounds(lower, upper))
  }

  /** `assertWithinBounds(value, lower, upper)`: both bounds inclusive. */
  function AssertWithin(value: real, lower: real, upper: real): (r: Outcome)
    ensures r == Ok <==> lower <= value <= upper
  {
    if value < lower || value > upper then BoundaryException else Ok
  }

  /** `assertWithinBounds(value, boundary)`. */
  function AssertWithinBounds(value: real, boundary: Boundary): (r: Outcome)
    ensures r == Ok <==> boundary.lower <= value <= boundary.upper
  {
    AssertWithin(value, boundary.lower, boundary.upper)
  }

  /**
   * Every constructed boundary admits both of its ends, so the interval it
   * describes is never empty; a one-point boundary is accepted.
   */
  lemma {:induction false} BoundsAreInclusive(lower: real, upper: real)
    requires lower <= upper
    ensures MakeBoundary(lower, upper).Built?
    ensures AssertWithinBounds(lower, MakeBoundary(lower, upper).boundary) == Ok
    ensures AssertWithinBounds(upper, MakeBoundary(lower, upper).boundary) == Ok
  {
    var b := MakeBoundary(lower, upper).boundary;
    assert b.lower == lower && b.upper == upper;
  }
}

=== FILE: circular_buffer.dfy ===
/**
 * `CircularBuffer`: a ring of doubles over a fixed array, with the index of
 * the front slot and a count of used slots. Kotlin's `Int` remainder truncates
 * toward zero, so a negative dividend gives a negative (and then out-of-bounds)
 * index; `KotlinRem` writes that out. The array reads that Kotlin would reject
 * surface as `Failure` results.
 */
module CircularBuffers {

  datatype Error = ArrayIndexOutOfBounds | DivisionByZero | NegativeArraySize

  datatype Result<T> = Success(value: T) | Failure(error: Error)

  /** Kotlin's `a % n` on `Int`: the sign follows the dividend. */
  function KotlinRem(a: int, n: int): (r: int)
    requires n > 0
    ensures -n < r < n
    ensures a >= 0 ==> r == a % n
    ensures a < 0 ==> r <= 0
    ensures (a - r) % n == 0
    ensures r < 0 <==> a < 0 && a % n != 0
  {
    if a >= 0 then
      ModUnique(a - a % n, n, a / n, 0);
      a % n
    else
      var m := (-a) % n;
      ModUnique(a + m, n, -((-a) / n), 0);
      if m == 0 then
        ModUnique(a, n, -((-a) / n), 0);
        0
      else
        ModUnique(a, n, -((-a) / n) - 1, n - m);
        -m
  }

  /** The remainder is the one `m` in `[0, n)` that differs from `a` by a multiple of `n`. */
  lemma {:induction false} ModUnique(a: int, n: int, q: int, m: int)
    requires n > 0 && 0 <= m < n && a == q * n + m
    ensures a % n == m
  {
    var d := q - a / n;
    assert d * n == a % n - m;
  }

  class CircularBuffer {
    var data: array<real>
    /** Index of the element at the front of the buffer. */
    var front: int
    /** Number of used slots; the code lets it drop below zero. */
    var length: int

    ghost predicate Valid()
      reads this
    {
      && (data.Length == 0 ==> front == 0)
      && (data.Length > 0 ==> 0 <= front < data.Length)
      && length <= data.Length
    }

    /**
     * `CircularBuffer(size)`: a buffer of `size` zero slots; a negative size
     * is the `NegativeArraySizeException` of the array allocation.
     */
    static method Create(size: int) returns (r: Result<CircularBuffer>)
      ensures size < 0 <==> r.Failure?
      ensures r.Failure? ==> r.error == NegativeArraySize
      ensures r.Success? ==> fresh(r.value) && fresh(r.value.data) && r.value.Valid()
      ensures r.Success? ==> r.value.data.Length == size && r.value.data[..] == seq(size, _ => 0.0)
      ensures r.Success? ==> r.value.front == 0 && r.value.length == 0
    {
      if size < 0 {
        return Failure(NegativeArraySize);
      }
      var buffer := new CircularBuffer(size);
      return Success(buffer);
    }

    constructor (size: nat)
      ensures Valid() && fresh(data)
      ensures data.Length == size && data[..] == seq(size, _ => 0.0)
      ensures front == 0 && length == 0
    {
      data := new real[size](_ => 0.0);
      front := 0;
      length := 0;
    }

    function Size(): int
      reads this
    {
      length
    }

    /** `get(index)`: the slot `index` places after the front. */
    function Get(index: int): (r: Result<real>)
      reads this, data
      requires Valid()
      ensures data.Length == 0 <==> r == Failure(DivisionByZero)
      ensures r.Success? ==> exists k :: 0 <= k < data.Length && r.value == data[k]
      ensures 0 <= index && data.Length > 0 ==> r == Success(data[(front + index) % data.Length])
      ensures data.Length > 0 ==>
        (r == Failure(ArrayIndexOutOfBounds) <==> front + index < 0 && (front + index) % data.Length != 0)
    {
      if data.Length == 0 then Failure(DivisionByZero)
      else
        var k := KotlinRem(front + index, data.Length);
        if k < 0 then Failure(ArrayIndexOutOfBounds) else Success(data[k])
    }

    function GetFirst(): (r: Result<real>)
      reads this, data
      requires Valid()
      ensures data.Length == 0 <==> r.Failure?
      ensures data.Length > 0 ==> r == Get(0)
    {
      if data.Length == 0 then Failure(ArrayIndexOutOfBounds)
      else
        assert KotlinRem(front + 0, data.Length) == front by { ModSmall(front, data.Length); }
        Success(data[front])
    }

    function GetLast(): (r: Result<real>)
      reads this, data
      requires Valid()
      ensures length == 0 ==> r == Success(0.0)
      ensures length != 0 ==> r == Get(length - 1)
    {
      if length == 0 then Success(0.0)
      else if data.Length == 0 then Failure(DivisionByZero)
      else
        var k := KotlinRem(front + length - 1, data.Length);
        if k < 0 then Failure(ArrayIndexOutOfBounds) else Success(data[k])
    }

    /** Advance `front` and write there; the used count saturates at the capacity. */
    method AddFirst(value: real)
      requires Valid()
      modifies this, data
      ensures Valid() && data == old(data)
      ensures data.Length == 0 ==> front == old(front) && length == old(length)
      ensures data.Length > 0 ==> front == (old(front) + 1) % data.Length
      ensures data.Length > 0 ==> data[..] == old(data[..])[front := value]
      ensures data.Length > 0 ==> length == if old(length) < data.Length then old(length) + 1 else old(length)
      ensures 0 <= old(length) ==> 0 <= length <= data.Length
      ensures data.Length > 0 ==> GetFirst() == Get(0) == Success(value)
    {
      if data.Length == 0 {
        return;
      }
      front := (front + 1) % data.Length;
      data[front] := value;
      if length < data.Length {
        length := length + 1;
      }
    }

    /** Reads the front slot, advances `front` and decrements the count, even when it is zero. */
    method RemoveFirst() returns (r: real)
      requires Valid()
      modifies this
      ensures Valid() && data == old(data)
      ensures data.Length == 0 ==> r == 0.0 && front == old(front) && length == old(length)
      ensures data.Length > 0 ==> old(GetFirst()) == Success(r)
      ensures data.Length > 0 ==> front == (old(front) + 1) % data.Length && length == old(length) - 1
    {
      if data.Length == 0 {
        return 0.0;
      }
      var temp := data[front];
      front := (front + 1) % data.Length;
      length := length - 1;
      return temp;
    }

    /** Decrements the count, even when it is zero, and reads the slot it no longer covers. */
    method RemoveLast() returns (r: Result<real>)
      requires Valid()
      modifies this
      ensures Valid() && data == old(data) && front == old(front)
      ensures data.Length == 0 ==> r == Success(0.0) && length == old(length)
      ensures data.Length > 0 ==> length == old(length) - 1
      ensures data.Length > 0 && old(length) != 0 ==> r == old(GetLast())
      ensures data.Length > 0 ==> r == Get(length)
    {
      if data.Length == 0 {
        return Success(0.0);
      }
      length := length - 1;
      var k := KotlinRem(front + length, data.Length);
      if k < 0 {
        return Failure(ArrayIndexOutOfBounds);
      }
      return Success(data[k]);
    }

    /** Copies the first `min(length, size)` elements, in order, to a fresh array of `size` zeros. */
    method Resize(size: int) returns (r: Result<()>)
      requires Valid()
      modifies this
      ensures Valid()
      ensures size < 0 <==> r.Failure?
      ensures size < 0 ==> data == old(data) && front == old(front) && length == old(length)
      ensures r.Success? ==> fresh(data) && data.Length == size && front == 0
      ensures r.Success? ==> length == if old(length) < size then old(length) else size
      ensures r.Success? ==> forall i :: 0 <= i < length ==> Get(i) == old(Get(i))
      ensures r.Success? ==> forall i :: 0 <= i < size && length <= i ==> data[i] == 0.0
    {
      if size < 0 {
        return Failure(NegativeArraySize);
      }
      var newBuffer := new real[size](_ => 0.0);
      var newLength := if length < size then length else size;
      var i := 0;
      while i < newLength
        modifies newBuffer
        invariant 0 <= i <= newLength || (newLength < 0 && i == 0)
        invariant newLength > 0 ==> data.Length > 0
        invariant forall j :: 0 <= j < i ==> newBuffer[j] == data[(front + j) % data.Length]
        invariant forall j :: i <= j < size ==> newBuffer[j] == 0.0
      {
        newBuffer[i] := data[(front + i) % data.Length];
        i := i + 1;
      }
      assert forall j :: 0 <= j < newLength ==> old(Get(j)) == Success(newBuffer[j]);
      length := newLength;
      data := newBuffer;
      front := 0;
      forall j | 0 <= j < length ensures Get(j) == Success(newBuffer[j]) {
        ModSmall(j, size);
      }
      return Success(());
    }

    method Clear()
      requires Valid()
      modifies this
      ensures Valid() && fresh(data)
      ensures data.Length == old(data.Length) && data[..] == seq(data.Length, _ => 0.0)
      ensures front == 0 && length == 0
    {
      data := new real[data.Length](_ => 0.0);
      front := 0;
      length := 0;
    }
  }

  lemma ModSmall(a: int, n: int)
    requires 0 <= a < n
    ensures a % n == a
  {
  }

  lemma ModWrap(a: int, n: int)
    requires 0 <= a < n
    ensures (a + n) % n == a
  {
  }

  /**
   * Two pushes to the front of a fresh buffer of capacity three or more:
   * `get(0)` is the second value, but `get(1)` is an untouched zero slot, and
   * the first value sits at `get(capacity - 1)`, because `addFirst` advances
   * `front` with `moduloInc`.
   */
  method PushTwiceThenRead(capacity: nat, a: real, b: real) returns (first: Result<real>, second: Result<real>, wrapped: Result<real>)
    requires capacity >= 3
    ensures first == Success(b)
    ensures second == Success(0.0)
    ensures wrapped == Success(a)
  {
    var made := CircularBuffer.Create(capacity);
    var buffer := made.value;
    ModSmall(1, capacity);
    ModSmall(2, capacity);
    buffer.AddFirst(a);
    buffer.AddFirst(b);
    assert buffer.front == 2;
    ModWrap(1, capacity);
    assert (2 + (capacity - 1)) % capacity == 1;
    if capacity == 3 {
      assert (2 + 1) % capacity == 0;
    } else {
      ModSmall(3, capacity);
    }
    first := buffer.Get(0);
    second := buffer.Get(1);
    wrapped := buffer.Get(capacity - 1);
  }
}

=== FILE: command_calls.dfy ===
/**
 * The `Command` interface of the kotlin tree, seen from the code that drives
 * commands: a command is an identity, its `isCompleted`/`isInterruptible`
 * answers are the sets of commands answering `true` at the time of the call,
 * and what the scheduler or a group does to commands is the sequence of
 * `start`/`periodic`/`end`/`interrupt` calls it makes.
 */
module CommandCalls {

  /** The identity of a command object. */
  type CommandRef = nat

  /** The identity of a subsystem object. */
  type Subsystem = nat

  datatype Kind = Start | Periodic | End | Interrupt

  /** One call made on a command. */
  datatype Call = Call(kind: Kind, target: CommandRef)

  /** The commands a sequence of calls addresses. */
  function Targets(calls: seq<Call>): (r: set<CommandRef>)
    ensures forall i :: 0 <= i < |calls| ==> calls[i].target in r
    ensures forall c :: c in r ==> exists i :: 0 <= i < |calls| && calls[i].target == c
  {
    set i | 0 <= i < |calls| :: calls[i].target
  }

  /** No command is addressed twice. */
  ghost predicate OncePerTarget(calls: seq<Call>) {
    forall i, j :: 0 <= i < j < |calls| ==> calls[i].target != calls[j].target
  }

  /** Appending a call to a command not yet addressed keeps each command addressed once. */
  lemma {:induction false} AppendCall(calls: seq<Call>, call: Call)
    ensures Targets(calls + [call]) == Targets(calls) + {call.target}
    ensures OncePerTarget(calls) && call.target !in Targets(calls) ==> OncePerTarget(calls + [call])
  {
    var extended := calls + [call];
    assert extended[|calls|] == call;
    assert forall i :: 0 <= i < |calls| ==> extended[i] == calls[i];
  }

  /** `kind` on each of `commands`, in order. */
  function Each(kind: Kind, commands: seq<CommandRef>): (r: seq<Call>)
    ensures |r| == |commands|
    ensures forall i :: 0 <= i < |r| ==> r[i] == Call(kind, commands[i])
  {
    seq(|commands|, i requires 0 <= i < |commands| => Call(kind, commands[i]))
  }
}

=== FILE: debouncer.dfy ===
/**
 * `Debouncer`: reports a pressed button as `true` only when more than `period`
 * has passed since the last reported press. The reading of the stopwatch
 * (`elapsedTime.milliseconds()`) is the parameter `now`.
 */
module Debouncers {

  /** One call of `get`: the reading and the stopwatch time it was taken at. */
  datatype Reading = Reading(value: bool, now: real)

  /** Whether `get(value)` reports a press, given the time of the last report. */
  predicate Fires(latest: real, period: real, r: Reading) {
    r.value && r.now - latest > period
  }

  /** The time of the last report after a sequence of `get` calls. */
  function LatestAfter(latest: real, period: real, rs: seq<Reading>): real
    decreases |rs|
  {
    if rs == [] then latest
    else
      var before := LatestAfter(latest, period, rs[..|rs| - 1]);
      if Fires(before, period, rs[|rs| - 1]) then rs[|rs| - 1].now else before
  }

  /** Whether call `i` of the sequence reports a press. */
  predicate FiredAt(latest: real, period: real, rs: seq<Reading>, i: int)
    requires 0 <= i < |rs|
  {
    Fires(LatestAfter(latest, period, rs[..i]), period, rs[i])
  }

  /** Calls that report nothing leave the time of the last report alone. */
  lemma {:induction false} QuietCallsKeepLatest(latest: real, period: real, rs: seq<Reading>, i: int, j: int)
    requires 0 <= i <= j <= |rs|
    requires forall k :: i <= k < j ==> !FiredAt(latest, period, rs, k)
    ensures LatestAfter(latest, period, rs[..j]) == LatestAfter(latest, period, rs[..i])
    decreases j - i
  {
    if i < j {
      QuietCallsKeepLatest(latest, period, rs, i, j - 1);
      assert rs[..j][..j - 1] == rs[..j - 1];
      assert !FiredAt(latest, period, rs, j - 1);
    }
  }

  /**
   * Two successive reported presses, at calls `i` and `j`, are more than
   * `period` apart on the stopwatch.
   */
  lemma {:induction false} ReportsAreSpaced(latest: real, period: real, rs: seq<Reading>, i: int, j: int)
    requires 0 <= i < j < |rs|
    requires FiredAt(latest, period, rs, i) && FiredAt(latest, period, rs, j)
    requires forall k :: i < k < j ==> !FiredAt(latest, period, rs, k)
    ensures rs[j].now - rs[i].now > period
  {
    assert rs[..i + 1][..i] == rs[..i];
    assert LatestAfter(latest, period, rs[..i + 1]) == rs[i].now;
    QuietCallsKeepLatest(latest, period, rs, i + 1, j);
  }

  class Debouncer {
    const period: real
    /** Stopwatch time of the last reported press. */
    var latest: real

    constructor (period: real := 0.25)
      ensures this.period == period && latest == 0.0
    {
      this.period := period;
      latest := 0.0;
    }

    /** `get(value)` at stopwatch time `now`. */
    method Get(value: bool, now: real) returns (r: bool)
      modifies this
      ensures r == Fires(old(latest), period, Reading(value, now))
      ensures r ==> latest == now
      ensures !r ==> latest == old(latest)
    {
      if value {
        if now - latest > period {
          latest := now;
          return true;
        }
      }
      return false;
    }
  }
}

=== FILE: drive_base.dfy ===
/**
 * The input shaping of `RobotDriveBase`: deadband, limit, squaring and the
 * in-place normalisation of a motor-speed array.
 */
module DriveBase {
  import MathUtil

  datatype Outcome = Ok | NullPointer

  /** The largest magnitude in a non-empty sequence of speeds. */
  function Largest(s: seq<real>): (r: real)
    requires |s| > 0
    ensures forall i :: 0 <= i < |s| ==> MathUtil.Abs(s[i]) <= r
    ensures exists i :: 0 <= i < |s| && MathUtil.Abs(s[i]) == r
    decreases |s|
  {
    if |s| == 1 then MathUtil.Abs(s[0])
    else
      var rest := Largest(s[..|s| - 1]);
      var last := MathUtil.Abs(s[|s| - 1]);
      assert forall i :: 0 <= i < |s| - 1 ==> s[i] == s[..|s| - 1][i];
      if rest >= last then rest else last
  }

  /** What `normalize` leaves in a non-empty array. */
  function Normalized(s: seq<real>): seq<real>
    requires |s| > 0
  {
    var m := Largest(s);
    if m > 1.0 then seq(|s|, i requires 0 <= i < |s| => s[i] / m) else s
  }

  /** After normalising, every speed has magnitude at most one. */
  lemma {:induction false} NormalizedWithinUnit(s: seq<real>)
    requires |s| > 0
    ensures |Normalized(s)| == |s|
    ensures forall i :: 0 <= i < |s| ==> MathUtil.Abs(Normalized(s)[i]) <= 1.0
  {
    var m := Largest(s);
    if m > 1.0 {
      forall i | 0 <= i < |s| ensures MathUtil.Abs(Normalized(s)[i]) <= 1.0 {
        QuotientWithinUnit(s[i], m);
      }
    }
  }

  lemma QuotientWithinUnit(x: real, m: real)
    requires m > 0.0 && MathUtil.Abs(x) <= m
    ensures MathUtil.Abs(x / m) <= 1.0
  {
    var q := x / m;
    assert q * m == x;
    if q < -1.0 {
      assert (-q - 1.0) * m > 0.0;
    }
  }

  /** A speed of the largest magnitude becomes exactly plus or minus one. */
  lemma {:induction false} NormalizedLargestIsUnit(s: seq<real>, i: int)
    requires |s| > 0 && 0 <= i < |s|
    requires Largest(s) > 1.0 && MathUtil.Abs(s[i]) == Largest(s)
    ensures Normalized(s)[i] == 1.0 || Normalized(s)[i] == -1.0
  {
    UnitQuotient(s[i], Largest(s));
  }

  lemma UnitQuotient(x: real, m: real)
    requires m > 0.0 && MathUtil.Abs(x) == m
    ensures x / m == 1.0 || x / m == -1.0
  {
    var q := x / m;
    assert q * m == x;
    if x == m {
      assert (q - 1.0) * m == 0.0;
    } else {
      assert (q + 1.0) * m == 0.0;
    }
  }

  /** Speeds already within one are left exactly as they were. */
  lemma {:induction false} NormalizedKeepsSmallSpeeds(s: seq<real>)
    requires |s| > 0
    requires forall i :: 0 <= i < |s| ==> MathUtil.Abs(s[i]) <= 1.0
    ensures Normalized(s) == s
  {
    var k :| 0 <= k < |s| && MathUtil.Abs(s[k]) == Largest(s);
    assert Largest(s) <= 1.0;
  }

  /** The worked example of the documentation comment. */
  lemma DocumentedExample()
    ensures Normalized([20.0, 5.0, 10.0, 15.0]) == [1.0, 0.25, 0.5, 0.75]
  {
    var s := [20.0, 5.0, 10.0, 15.0];
    assert s[..3] == [20.0, 5.0, 10.0];
    assert s[..3][..2] == [20.0, 5.0];
    assert s[..3][..2][..1] == [20.0];
    assert Largest(s[..3][..2]) == 20.0;
    assert Largest(s[..3]) == 20.0;
    assert Largest(s) == 20.0;
  }

  class RobotDriveBase {
    const squareInputs: bool

    constructor (squareInputs: bool)
      ensures this.squareInputs == squareInputs
    {
      this.squareInputs := squareInputs;
    }

    /** `applyDeadband`: anything below the deadband, negatives included, becomes zero. */
    function ApplyDeadband(value: real, deadband: real := 0.02): (r: real)
      ensures value < deadband ==> r == 0.0
      ensures value >= deadband ==> r == value
      ensures value < 0.0 && deadband > 0.0 ==> r == 0.0
    {
      if value < deadband then 0.0 else value
    }

    /** `limit`: clamp to `[-1, 1]`, keeping the sign. */
    function Limit(value: real): (r: real)
      ensures -1.0 <= r <= 1.0
      ensures -1.0 <= value <= 1.0 ==> r == value
      ensures MathUtil.Sign(r) == MathUtil.Sign(value)
    {
      MathUtil.Limit(value, 1.0)
    }

    /** `scaleInputs`: squares the input when `squareInputs` is set, losing its sign. */
    function ScaleInputs(value: real): (r: real)
      ensures !squareInputs ==> r == value
      ensures squareInputs ==> r >= 0.0 && r == MathUtil.Abs(value) * MathUtil.Abs(value)
    {
      if squareInputs then value * value else value
    }

    /** `correctInputs`: limit, then deadband. */
    function CorrectInputs(value: real): (r: real)
      ensures r == 0.0 || 0.02 <= r <= 1.0
      ensures value < 0.02 ==> r == 0.0
      ensures 0.02 <= value <= 1.0 ==> r == value
      ensures value > 1.0 ==> r == 1.0
    {
      ApplyDeadband(Limit(value))
    }

    /**
     * `normalize`: when the largest magnitude exceeds one, divide every speed
     * by it. An empty array has no largest speed and the code fails there.
     */
    method Normalize(motorSpeeds: array<real>) returns (r: Outcome)
      modifies motorSpeeds
      ensures motorSpeeds.Length == 0 <==> r == NullPointer
      ensures motorSpeeds.Length == 0 ==> motorSpeeds[..] == old(motorSpeeds[..])
      ensures motorSpeeds.Length > 0 ==> motorSpeeds[..] == Normalized(old(motorSpeeds[..]))
    {
      if motorSpeeds.Length == 0 {
        return NullPointer;
      }
      var largestSpeed := MathUtil.Abs(motorSpeeds[0]);
      var i := 1;
      while i < motorSpeeds.Length
        invariant 1 <= i <= motorSpeeds.Length
        invariant largestSpeed == Largest(motorSpeeds[..i])
      {
        assert motorSpeeds[..i + 1][..i] == motorSpeeds[..i];
        if MathUtil.Abs(motorSpeeds[i]) > largestSpeed {
          largestSpeed := MathUtil.Abs(motorSpeeds[i]);
        }
        i := i + 1;
      }
      assert motorSpeeds[..] == motorSpeeds[..motorSpeeds.Length];
      if largestSpeed > 1.0 {
        i := 0;
        while i < motorSpeeds.Length
          invariant 0 <= i <= motorSpeeds.Length
          invariant forall j :: 0 <= j < i ==> motorSpeeds[j] == old(motorSpeeds[j]) / largestSpeed
          invariant forall j :: i <= j < motorSpeeds.Length ==> motorSpeeds[j] == old(motorSpeeds[j])
        {
          motorSpeeds[i] := motorSpeeds[i] / largestSpeed;
          i := i + 1;
        }
      }
      return Ok;
    }
  }
}

=== FILE: legacy_commands.dfy ===
/**
 * The class-based command framework of the java tree: `Command` with its
 * lifecycle flags and the subclasses `InstantCommand`, `TimedCommand` (and
 * `WaitCommand`), `WaitForChildren`, `CommandGroup` and `ConditionalCommand`,
 * told apart by `kind`. A subclass written by a team is `Custom`: the
 * answers of its overridable methods are fields (`userFinished`,
 * `conditionValue`) and the calls the framework makes to `initialize`,
 * `execute`, `end` and `interrupted` are recorded in `hooks`. Exceptions are
 * an `Outcome` that every caller propagates, leaving whatever was changed
 * before the throw.
 *
 * A group owns the commands of its entries and a conditional owns its two
 * branches: each owned command's footprint `Repr` lies inside the owner's
 * and the footprints of siblings are disjoint.
 */
module LegacyCommands {
  import UtilSet

  /** The identity of a subsystem object. */
  type Subsystem = nat

  /** Normal completion, or the exception a call throws. */
  datatype Outcome = Ok | IllegalUseOfCommand | IllegalArgument

  /** The overridable methods the framework calls on a command. */
  datatype Hook = Initialize | Execute | End | Interrupted

  /** Which class a command is an instance of. */
  datatype Kind = Custom | Instant | Timed | WaitForChildren | Group | Conditional

  /** `Entry.IN_SEQUENCE`, `Entry.BRANCH_PEER` and `Entry.BRANCH_CHILD`. */
  datatype EntryState = InSequence | BranchPeer | BranchChild

  /** `CommandGroup.Entry`: a command of a group, how it runs, and its timeout. */
  datatype Entry = Entry(command: Command, state: EntryState, timeout: real)

  /** The timeout value that means "no timeout". */
  const NO_TIMEOUT: real := -1.0

  /** A timeout the constructors and setters accept, or none. */
  predicate ValidTimeout(t: real) {
    t == NO_TIMEOUT || t >= 0.0
  }

  /** Some subsystem is in both lists. */
  predicate Shares(a: seq<Subsystem>, b: seq<Subsystem>) {
    exists s :: s in a && s in b
  }

  /** The elements of `s` whose flag in `keep` is set, in their order. */
  function Select<T>(s: seq<T>, keep: seq<bool>): (r: seq<T>)
    requires |keep| == |s|
    ensures |r| <= |s|
    ensures forall x :: x in r ==> x in s
    ensures (forall i :: 0 <= i < |keep| ==> keep[i]) ==> r == s
    decreases |s|
  {
    if s == [] then []
    else Select(s[..|s| - 1], keep[..|s| - 1]) + (if keep[|s| - 1] then [s[|s| - 1]] else [])
  }

  /** Deciding one more element extends the selection by it or by nothing. */
  lemma {:induction false} SelectStep<T>(s: seq<T>, keep: seq<bool>, x: T, b: bool)
    requires |keep| == |s|
    ensures Select(s + [x], keep + [b]) == Select(s, keep) + (if b then [x] else [])
  {
    assert (s + [x])[..|s|] == s;
    assert (keep + [b])[..|s|] == keep;
  }

  /** Removing the element right after a prefix. */
  lemma DropAfter<T>(a: seq<T>, b: seq<T>)
    requires |b| > 0
    ensures (a + b)[..|a|] + (a + b)[|a| + 1..] == a + b[1..]
    ensures (a + b)[|a|] == b[0]
  {
    assert (a + b)[..|a|] == a;
    assert (a + b)[|a| + 1..] == b[1..];
  }

  /** Moving the head of `b` onto the end of `a`. */
  lemma Regroup<T>(a: seq<T>, b: seq<T>)
    requires |b| > 0
    ensures a + b == (a + [b[0]]) + b[1..]
  {
    assert b == [b[0]] + b[1..];
  }

  /** Moving one element from a suffix onto the prefix. */
  lemma MoveAcross<T>(s: seq<T>, j: nat)
    requires j < |s|
    ensures s[..j + 1] == s[..j] + [s[j]]
    ensures s[j..][1..] == s[j + 1..] && s[j..][0] == s[j]
  {
  }

  /**
   * One step of a walk that filters `s` in place: `cur` holds the selection
   * of the first `j` elements followed by the undecided rest, and position
   * `i` holds `s[j]`. Keeping it moves past it; dropping it removes it.
   */
  lemma {:induction false} FilterStep<T>(s: seq<T>, keep: seq<bool>, j: nat, b: bool, cur: seq<T>, i: nat)
    requires j < |s| && |keep| == j
    requires cur == Select(s[..j], keep) + s[j..] && i == |Select(s[..j], keep)|
    ensures i < |cur| && cur[i] == s[j]
    ensures b ==> cur == Select(s[..j + 1], keep + [b]) + s[j + 1..]
    ensures b ==> i + 1 == |Select(s[..j + 1], keep + [b])|
    ensures !b ==> cur[..i] + cur[i + 1..] == Select(s[..j + 1], keep + [b]) + s[j + 1..]
    ensures !b ==> i == |Select(s[..j + 1], keep + [b])|
  {
    var prefix := Select(s[..j], keep);
    var rest := s[j..];
    MoveAcross(s, j);
    SelectStep(s[..j], keep, s[j], b);
    if b {
      Regroup(prefix, rest);
    } else {
      DropAfter(prefix, rest);
    }
  }

  /** For each entry, whether its command shares no subsystem with `subsystems`. */
  ghost function Survivors(entries: seq<Entry>, subsystems: seq<Subsystem>): (r: seq<bool>)
    reads set e | e in entries :: e.command
    ensures |r| == |entries|
    ensures forall q :: 0 <= q < |entries| ==> (r[q] <==> !Shares(entries[q].command.requirements, subsystems))
  {
    if entries == [] then []
    else [!Shares(entries[0].command.requirements, subsystems)] + Survivors(entries[1..], subsystems)
  }

  /** `Entry.isTimedOut()`: an entry can only time out once its command's timer is started. */
  function EntryTimedOut(e: Entry): (r: bool)
    reads e.command
    ensures r ==> e.timeout != NO_TIMEOUT && e.command.timerStarted
  {
    if e.timeout == NO_TIMEOUT then false
    else
      var time := e.command.TimeSinceInitialized();
      time != 0.0 && time >= e.timeout
  }

  /**
   * What `cancelShadowMethod()` and then `removed()` leave on a command: it is
   * reset and completed; if it had been initialized, `interrupted` ran when it
   * was canceled or running and `end` ran otherwise, and if it had never been
   * initialized neither hook ran.
   */
  twostate predicate Evicted(c: Command)
    reads c
  {
    && c.completed && !c.running && !c.initialized && !c.canceled
    && c.hooks == old(c.hooks) + c.RemovalHooks(old(c.initialized), old(c.canceled) || old(c.running))
  }

  /**
   * What `cancelConflicts` leaves on an active child's command: evicted if
   * it conflicts, untouched if it survives.
   */
  twostate predicate Resolved(c: Command, survives: bool)
    reads c
  {
    && (!survives ==> Evicted(c))
    && (survives ==> unchanged(c))
  }

  /**
   * What a command's turn in `executeShadowMethod` starts from: whether
   * `run()` will find it canceled (it already was, or its entry timed out
   * while it was running, so `cancelShadowMethod()` cancels it first),
   * whether it was initialized, and its hooks so far.
   */
  datatype TurnStart = TurnStart(canceled: bool, initialized: bool, hooks: seq<Hook>)

  /** Whether `run()` finds the command of `e` canceled on its turn. */
  predicate CanceledAtTurn(e: Entry)
    reads e.command
  {
    e.command.canceled || (EntryTimedOut(e) && e.command.running)
  }

  function StartOfTurn(e: Entry): (t: TurnStart)
    reads e.command
    ensures t.canceled <==> CanceledAtTurn(e)
    ensures t.initialized == e.command.initialized && t.hooks == e.command.hooks
  {
    TurnStart(CanceledAtTurn(e), e.command.initialized, e.command.hooks)
  }

  /**
   * What a turn of the children loop leaves on a child's command, from
   * `start`. A child canceled at its turn does not stay and is removed, its
   * hooks gaining only what `removed()` calls. Any other child runs:
   * `initialize` on its first turn, then `execute`; it stays exactly when
   * `run()` answers true (for a team-written command, when `isFinished`
   * answers false), and otherwise it is removed, which calls `end`. A child
   * that stays is not canceled; one that leaves is completed, not running
   * and not initialized.
   */
  predicate Turned(c: Command, start: TurnStart, keep: bool)
    reads c
  {
    && (start.canceled ==> !keep && c.hooks == start.hooks + c.RemovalHooks(start.initialized, true))
    && (!start.canceled ==>
          c.hooks == start.hooks + (if start.initialized then [] else [Initialize]) + [Execute] + (if keep then [] else [End]))
    && (!start.canceled && c.kind == Custom ==> (keep <==> !c.userFinished))
    && (keep ==> !c.canceled)
    && (!keep ==> c.completed && !c.running && !c.initialized)
  }

  /** Every command of `entries` from position `n` on is plain. */
  predicate PlainFrom(entries: seq<Entry>, n: nat)
    decreases |entries| - n
  {
    n < |entries| ==> entries[n].command.Plain() && PlainFrom(entries, n + 1)
  }

  lemma {:induction false} AllPlainFrom(entries: seq<Entry>, n: nat)
    requires forall q :: n <= q < |entries| ==> entries[q].command.Plain()
    ensures PlainFrom(entries, n)
    decreases |entries| - n
  {
    if n < |entries| {
      AllPlainFrom(entries, n + 1);
    }
  }

  /** `slots` places each of `entries` at its own index of `commands`, in increasing order. */
  ghost predicate Placed(commands: seq<Entry>, entries: seq<Entry>, slots: seq<nat>) {
    && |slots| == |entries|
    && (forall q :: 0 <= q < |entries| ==> slots[q] < |commands| && commands[slots[q]] == entries[q])
    && (forall q, p :: 0 <= q < p < |entries| ==> slots[q] < slots[p])
  }

  /** The queue `Scheduler.add` appends to: commands handed over to be started. */
  class PendingStarts {
    var added: seq<Command>

    constructor ()
      ensures added == []
    {
      added := [];
    }
  }

  class Command {
    const kind: Kind
    /** `isTimerStarted`, and what the stopwatch `timer.seconds()` would read now. */
    var timerStarted: bool
    var timerSeconds: real
    var timeout: real
    var initialized: bool
    var requirements: seq<Subsystem>
    var running: bool
    var interruptible: bool
    var canceled: bool
    var locked: bool
    var completed: bool
    var parent: Command?
    /** The calls made so far to this command's overridable methods. */
    var hooks: seq<Hook>
    /** What a `Custom` command's `isFinished()` answers now. */
    var userFinished: bool

    // CommandGroup
    var commands: seq<Entry>
    var children: seq<Entry>
    var currentCommandIndex: int
    /** The index in `commands` of each active child. */
    ghost var childSlots: seq<nat>

    // ConditionalCommand
    const onTrue: Command?
    const onFalse: Command?
    /** What `condition()` answers now. */
    var conditionValue: bool
    var chosen: Command?

    ghost var Repr: set<Command>

    ghost predicate Valid()
      reads this, Repr
      decreases Repr
    {
      && this in Repr
      && ValidTimeout(timeout)
      && (kind == Group ==>
        && -1 <= currentCommandIndex <= |commands|
        && (forall m :: 0 <= m < |commands| ==>
              && commands[m].command in Repr
              && commands[m].command.Repr <= Repr
              && this !in commands[m].command.Repr
              && commands[m].command.parent == this
              && ValidTimeout(commands[m].timeout)
              && commands[m].command.Valid())
        && (forall m, n :: 0 <= m < n < |commands| ==>
              commands[m].command.Repr !! commands[n].command.Repr)
        && |childSlots| == |children|
        && (forall k :: 0 <= k < |children| ==>
              && childSlots[k] < currentCommandIndex
              && commands[childSlots[k]] == children[k]
              && children[k].state == BranchChild)
        && (forall k, l :: 0 <= k < l < |children| ==> childSlots[k] < childSlots[l])
        && (!initialized ==> children == []))
      && (kind == Kind.Conditional ==>
        && onTrue != null && onTrue in Repr && onTrue.Repr <= Repr && this !in onTrue.Repr
        && onTrue.Valid()
        && (onFalse != null ==>
              && onFalse in Repr && onFalse.Repr <= Repr && this !in onFalse.Repr
              && onFalse.Valid()
              && onTrue.Repr !! onFalse.Repr)
        && (chosen == null || chosen == onTrue || chosen == onFalse))
    }

    /** The lifecycle flags of a command, and the cursor of a group. */
    function Lifecycle(): (bool, bool, bool, bool, int, seq<Hook>)
      reads this
    {
      (initialized, running, completed, canceled, currentCommandIndex, hooks)
    }

    /** The lifecycle flags of a command. */
    function Flags(): (bool, bool, bool, bool, seq<Hook>)
      reads this
    {
      (initialized, running, completed, canceled, hooks)
    }

    /** What no lifecycle method of a command changes about it. */
    twostate predicate Stable()
      reads this
    {
      && Repr == old(Repr) && parent == old(parent) && commands == old(commands)
      && requirements == old(requirements) && locked == old(locked)
      && interruptible == old(interruptible) && timeout == old(timeout)
      && userFinished == old(userFinished)
    }

    /**
     * A call on the command of entry `k` changes nothing outside that
     * command's footprint, so the group stays valid as long as the command does.
     */
    twostate lemma EntryCallKeepsValid(k: nat)
      requires old(Valid()) && kind == Group && k < |old(commands)|
      requires unchanged(this)
      requires commands[k].command.Valid()
      requires commands[k].command.Repr == old(commands[k].command.Repr)
      requires commands[k].command.parent == this
      requires forall o :: o in old(Repr) && o !in old(commands[k].command.Repr) ==> unchanged(o)
      ensures Valid()
      ensures forall m :: 0 <= m < |commands| && m != k ==>
        commands[m].command.requirements == old(commands[m].command.requirements)
    {
      forall m | 0 <= m < |commands| && m != k
        ensures commands[m].command.Valid() && commands[m].command.Repr == old(commands[m].command.Repr)
        ensures commands[m].command.parent == this
        ensures commands[m].command.requirements == old(commands[m].command.requirements)
      {
        var d := commands[m].command;
        assert old(d.Repr) !! old(commands[k].command.Repr);
        assert old(d.Valid());
        assert d in old(d.Repr);
      }
    }

    /**
     * A call on the chosen branch of a conditional changes nothing outside
     * that branch's footprint, so the conditional stays valid as long as the
     * branch does.
     */
    twostate lemma BranchCallKeepsValid(c: Command)
      requires old(Valid()) && kind == Kind.Conditional && (c == onTrue || c == onFalse)
      requires unchanged(this)
      requires c.Valid() && c.Repr == old(c.Repr)
      requires forall o :: o in old(Repr) && o !in old(c.Repr) ==> unchanged(o)
      ensures Valid()
    {
      if onFalse != null && c == onTrue {
        assert old(onFalse.Valid());
        assert onFalse in old(onFalse.Repr);
      } else if onFalse != null {
        assert old(onTrue.Valid());
        assert onTrue in old(onTrue.Repr);
      }
    }

    /** `Command()` and `Command(timeout)` after the check, for every kind but the conditional. */
    constructor (kind: Kind, timeout: real)
      requires kind != Kind.Conditional && ValidTimeout(timeout)
      ensures Valid() && fresh(Repr) && Repr == {this}
      ensures this.kind == kind && this.timeout == timeout && !timerStarted
      ensures !initialized && !running && interruptible && !canceled && !locked && !completed
      ensures requirements == [] && parent == null && hooks == []
      ensures commands == [] && children == [] && currentCommandIndex == -1 && chosen == null
    {
      this.kind := kind;
      this.timeout := timeout;
      timerStarted := false;
      timerSeconds := 0.0;
      initialized := false;
      requirements := [];
      running := false;
      interruptible := true;
      canceled := false;
      locked := false;
      completed := false;
      parent := null;
      hooks := [];
      userFinished := false;
      commands := [];
      children := [];
      currentCommandIndex := -1;
      childSlots := [];
      onTrue := null;
      onFalse := null;
      conditionValue := false;
      chosen := null;
      Repr := {this};
    }

    /** `ConditionalCommand(onTrue, onFalse)`. */
    constructor WithBranches(onTrue: Command, onFalse: Command?)
      requires onTrue.Valid()
      requires onFalse != null ==> onFalse.Valid() && onTrue.Repr !! onFalse.Repr
      ensures Valid() && kind == Kind.Conditional
      ensures this.onTrue == onTrue && this.onFalse == onFalse && chosen == null
      ensures Repr == {this} + onTrue.Repr + (if onFalse != null then onFalse.Repr else {})
      ensures timeout == NO_TIMEOUT && !timerStarted && requirements == [] && parent == null
      ensures !initialized && !running && interruptible && !canceled && !locked && !completed
      ensures hooks == []
    {
      kind := Kind.Conditional;
      timeout := NO_TIMEOUT;
      timerStarted := false;
      timerSeconds := 0.0;
      initialized := false;
      requirements := [];
      running := false;
      interruptible := true;
      canceled := false;
      locked := false;
      completed := false;
      parent := null;
      hooks := [];
      userFinished := false;
      commands := [];
      children := [];
      currentCommandIndex := -1;
      childSlots := [];
      this.onTrue := onTrue;
      this.onFalse := onFalse;
      conditionValue := false;
      chosen := null;
      Repr := {this} + onTrue.Repr + (if onFalse != null then onFalse.Repr else {});
    }

    /** `Command(timeout)`: a negative timeout is refused. */
    static method WithTimeout(kind: Kind, timeout: real) returns (r: Outcome, c: Command?)
      requires kind != Kind.Conditional
      ensures r == IllegalArgument <==> timeout < 0.0
      ensures r == IllegalArgument ==> c == null
      ensures r == Ok ==> c != null && fresh(c) && c.Valid() && c.kind == kind && c.timeout == timeout
      ensures r != IllegalUseOfCommand
    {
      if timeout < 0.0 {
        return IllegalArgument, null;
      }
      c := new Command(kind, timeout);
      r := Ok;
    }

    /** `setTimeout(seconds)`: a negative value is refused and changes nothing. */
    method SetTimeout(seconds: real) returns (r: Outcome)
      requires Valid()
      modifies this`timeout
      ensures Valid()
      ensures r == IllegalArgument <==> seconds < 0.0
      ensures r == Ok <==> seconds >= 0.0
      ensures timeout == if seconds < 0.0 then old(timeout) else seconds
    {
      if seconds < 0.0 {
        return IllegalArgument;
      }
      timeout := seconds;
      r := Ok;
    }

    /** `timeSinceInitialized()`: zero unless the timer was started. */
    function TimeSinceInitialized(): (r: real)
      reads this
      ensures !timerStarted ==> r == 0.0
      ensures timerStarted ==> r == timerSeconds
    {
      if timerStarted then timerSeconds else 0.0
    }

    /** `isTimedOut()`: never without a timeout. */
    function IsTimedOut(): (r: bool)
      reads this
      ensures timeout == NO_TIMEOUT ==> !r
      ensures r <==> timeout != NO_TIMEOUT && TimeSinceInitialized() >= timeout
      ensures !timerStarted && ValidTimeout(timeout) ==> (r <==> timeout == 0.0)
    {
      timeout != NO_TIMEOUT && TimeSinceInitialized() >= timeout
    }

    /** `validate(message)`: a locked command refuses changes. */
    function Validate(): (r: Outcome)
      reads this
      ensures r == Ok <==> !locked
      ensures r != Ok ==> r == IllegalUseOfCommand
    {
      if locked then IllegalUseOfCommand else Ok
    }

    /** `lockChanges()`. */
    method LockChanges()
      requires Valid()
      modifies this`locked
      ensures Valid() && locked
    {
      locked := true;
    }

    /** `requires(subsystem)`: add a requirement, unless the command is locked. */
    method Requires(s: Subsystem) returns (r: Outcome)
      requires Valid()
      modifies this`requirements
      ensures Valid()
      ensures old(locked) ==> r == IllegalUseOfCommand && requirements == old(requirements)
      ensures !old(locked) ==> r == Ok && requirements == UtilSet.Insert(old(requirements), s)
    {
      r := Validate();
      if r != Ok {
        return;
      }
      requirements := UtilSet.Insert(requirements, s);
    }

    /** `clearRequirements()`. */
    method ClearRequirements()
      requires Valid()
      modifies this`requirements
      ensures Valid() && requirements == []
    {
      requirements := [];
    }

    /** `setParent(parent)`: a command joins at most one group, and joining locks it. */
    method SetParent(p: Command) returns (r: Outcome)
      requires Valid()
      modifies this`locked, this`parent
      ensures Valid()
      ensures old(parent) != null ==> r == IllegalUseOfCommand && parent == old(parent) && locked == old(locked)
      ensures old(parent) == null ==> r == Ok && parent == p && locked
    {
      if parent != null {
        return IllegalUseOfCommand;
      }
      LockChanges();
      parent := p;
      r := Ok;
    }

    /**
     * `start()`: lock, then refuse a parented command; otherwise hand the
     * command to the scheduler and mark it not completed.
     */
    method Start(sched: PendingStarts) returns (r: Outcome)
      requires Valid()
      modifies this`locked, this`completed, sched
      ensures Valid() && locked
      ensures old(parent) != null ==>
        r == IllegalUseOfCommand && completed == old(completed) && sched.added == old(sched.added)
      ensures old(parent) == null ==>
        r == Ok && !completed && sched.added == old(sched.added) + [this]
    {
      LockChanges();
      if parent != null {
        return IllegalUseOfCommand;
      }
      sched.added := sched.added + [this];
      completed := false;
      r := Ok;
    }

    /** `startRunning()`: running, with the timer flag cleared. */
    method StartRunning()
      requires Valid()
      modifies this`running, this`timerStarted
      ensures Valid() && running && !timerStarted
    {
      running := true;
      timerStarted := false;
    }

    /** `isFinished()` of each kind. */
    function IsFinished(): (r: bool)
      reads this, chosen, parent
      ensures kind == Instant ==> r
      ensures kind == Timed ==> (r <==> IsTimedOut())
      ensures kind == WaitForChildren ==> (r <==> parent != null && parent.children == [])
      ensures kind == Group ==> (r <==> currentCommandIndex >= |commands| && children == [])
      ensures kind == Kind.Conditional ==> (r <==> chosen == null || chosen.completed)
      ensures kind == Custom ==> r == userFinished
    {
      match kind
      case Custom => userFinished
      case Instant => true
      case Timed => IsTimedOut()
      case WaitForChildren => parent != null && parent.children == []
      case Group => currentCommandIndex >= |commands| && children == []
      case Conditional => chosen == null || chosen.completed
    }

    /** Neither a group nor a conditional: its shadow methods do nothing, so none of its calls throws. */
    predicate Plain() {
      kind != Group && kind != Kind.Conditional
    }

    /** Every command of the group's entries is plain. */
    predicate PlainEntries()
      reads this
    {
      forall m :: 0 <= m < |commands| ==> commands[m].command.Plain()
    }

    /** The group has no branch peer entry, whose `start()` the group always refuses. */
    predicate NoPeers()
      reads this
    {
      forall m :: 0 <= m < |commands| ==> commands[m].state != BranchPeer
    }

    /**
     * Whether cancelling succeeds below this command: a conditional's running
     * choice has no parent, so its `cancel()` is not refused, and cancelling
     * it succeeds in turn.
     */
    ghost predicate CancelsCleanly()
      requires Valid()
      reads this, Repr
      decreases Repr
    {
      kind == Kind.Conditional && chosen != null && chosen.running ==>
        chosen.parent == null && chosen.CancelsCleanly()
    }

    /**
     * `isInterruptible()`: the command's own flag, and for a group also the
     * flags of the current sequential command and of every active child.
     */
    function IsInterruptible(): (r: bool)
      requires Valid()
      reads this, Repr
      decreases Repr
      ensures r ==> interruptible
      ensures kind != Group ==> (r <==> interruptible)
      ensures kind == Group && r && 0 <= currentCommandIndex < |commands| ==>
        commands[currentCommandIndex].command.IsInterruptible()
      ensures kind == Group && r ==> forall k :: 0 <= k < |children| ==> children[k].command.IsInterruptible()
      ensures kind == Group ==>
        (r <==> && interruptible
                && (0 <= currentCommandIndex < |commands| ==> commands[currentCommandIndex].command.IsInterruptible())
                && (forall k :: 0 <= k < |children| ==> children[k].command.IsInterruptible()))
    {
      && interruptible
      && (kind == Group ==>
        && (0 <= currentCommandIndex < |commands| ==> commands[currentCommandIndex].command.IsInterruptible())
        && (forall k :: 0 <= k < |children| ==> children[k].command.IsInterruptible()))
    }

    /** `cancelShadowMethod()`: a conditional first cancels its running choice. */
    method CancelShadowMethod() returns (r: Outcome)
      requires Valid()
      modifies Repr
      decreases Repr, 1
      ensures Valid() && Stable()
      ensures initialized == old(initialized) && running == old(running) && completed == old(completed)
      ensures hooks == old(hooks) && children == old(children) && childSlots == old(childSlots)
      ensures currentCommandIndex == old(currentCommandIndex) && chosen == old(chosen)
      ensures kind != Kind.Conditional ==> r == Ok
      ensures r == Ok <==> CancelsCleanly()
      ensures r == Ok ==> canceled == (old(canceled) || old(running))
      ensures r != Ok ==> canceled == old(canceled)
    {
      if kind == Kind.Conditional && chosen != null && chosen.running {
        r := chosen.Cancel();
        if r != Ok {
          return;
        }
      }
      if running {
        canceled := true;
      }
      r := Ok;
    }

    /** `cancel()`: refused inside a group. */
    method Cancel() returns (r: Outcome)
      requires Valid()
      modifies Repr
      decreases Repr, 2
      ensures Valid() && Stable()
      ensures initialized == old(initialized) && running == old(running) && completed == old(completed)
      ensures hooks == old(hooks) && children == old(children) && childSlots == old(childSlots)
      ensures currentCommandIndex == old(currentCommandIndex) && chosen == old(chosen)
      ensures parent != null ==> r == IllegalUseOfCommand
      ensures parent == null && kind != Kind.Conditional ==> r == Ok
      ensures r == Ok <==> parent == null && CancelsCleanly()
      ensures r == Ok ==> canceled == (old(canceled) || old(running))
      ensures r != Ok ==> canceled == old(canceled)
    {
      if parent != null {
        return IllegalUseOfCommand;
      }
      r := CancelShadowMethod();
    }

    /** The hooks `removed()` calls: `interrupted` if canceled, `end` otherwise, and none if never initialized. */
    function RemovalHooks(wasInitialized: bool, wasCanceled: bool): (r: seq<Hook>)
      ensures !wasInitialized <==> r == []
      ensures wasInitialized && wasCanceled ==> r[0] == Interrupted
      ensures wasInitialized && !wasCanceled ==> r == [End]
      ensures Interrupted in r <==> wasInitialized && wasCanceled
    {
      if !wasInitialized then []
      else if wasCanceled then [Interrupted] + (if kind == Kind.Conditional then [End] else [])
      else [End]
    }

    /**
     * `removed()`: once initialized, the command is interrupted if it was
     * canceled and ended otherwise, and then it is reset and completed.
     */
    method Removed() returns (r: Outcome)
      requires Valid()
      modifies Repr
      decreases Repr, 3
      ensures Valid() && Stable()
      ensures !old(initialized) ==> r == Ok
      ensures Plain() ==> r == Ok
      ensures kind == Group && PlainEntries() ==> r == Ok
      ensures kind == Kind.Conditional ==>
        (r == Ok <==> || !old(initialized) || !old(canceled) || chosen == null || !chosen.running
                      || (chosen.parent == null && chosen.CancelsCleanly()))
      ensures r == Ok ==> !initialized && !canceled && !running && completed
      ensures r == Ok ==> hooks == old(hooks) + RemovalHooks(old(initialized), old(canceled))
    {
      if initialized {
        if canceled {
          RecordHook(Interrupted);
          r := InterruptedShadowMethod();
        } else {
          RecordHook(End);
          r := EndShadowMethod();
        }
        if r != Ok {
          return;
        }
      }
      MarkCompleted();
      r := Ok;
    }

    /** The framework calls the overridable method `h`. */
    method RecordHook(h: Hook)
      requires Valid()
      modifies this`hooks
      ensures Valid() && hooks == old(hooks) + [h]
    {
      hooks := hooks + [h];
    }

    /** The last four assignments of `removed()`. */
    method MarkCompleted()
      requires Valid() && (kind == Group ==> children == [])
      modifies this`initialized, this`canceled, this`running, this`completed
      ensures Valid() && !initialized && !canceled && !running && completed
    {
      initialized := false;
      canceled := false;
      running := false;
      completed := true;
    }

    /**
     * `interruptedShadowMethod()`: a group ends its commands; a conditional
     * cancels its running choice and then calls the base `interrupted()`,
     * which calls `end()`.
     */
    method InterruptedShadowMethod() returns (r: Outcome)
      requires Valid()
      modifies Repr
      decreases Repr, 2
      ensures Valid() && Stable()
      ensures initialized == old(initialized) && running == old(running) && completed == old(completed)
      ensures canceled == old(canceled) && currentCommandIndex == old(currentCommandIndex)
      ensures kind != Group ==> children == old(children)
      ensures kind == Group && r == Ok ==> children == []
      ensures kind == Group && r == Ok && 0 <= currentCommandIndex < |commands| ==>
        Evicted(commands[currentCommandIndex].command)
      ensures kind == Group && r == Ok ==> forall q :: 0 <= q < |old(children)| ==> Evicted(old(children[q].command))
      ensures kind != Group && kind != Kind.Conditional ==> r == Ok && hooks == old(hooks)
      ensures kind == Group && PlainEntries() ==> r == Ok
      ensures kind == Kind.Conditional ==>
        (r == Ok <==> chosen == null || !chosen.running || (chosen.parent == null && chosen.CancelsCleanly()))
      ensures kind == Kind.Conditional && r == Ok ==> hooks == old(hooks) + [End]
      ensures kind == Group ==> hooks == old(hooks)
    {
      if kind == Group {
        r := EndShadowMethod();
      } else if kind == Kind.Conditional {
        if chosen != null && chosen.running {
          r := chosen.Cancel();
          if r != Ok {
            return;
          }
        }
        RecordHook(End);
        r := Ok;
      } else {
        r := Ok;
      }
    }

    /** `cancelShadowMethod()` and then `removed()` on the command of entry `k`. */
    method Evict(k: nat) returns (r: Outcome)
      requires Valid() && kind == Group && k < |commands|
      modifies commands[k].command.Repr
      decreases Repr, 0
      ensures Valid() && unchanged(this)
      ensures commands[k].command.Plain() ==> r == Ok
      ensures r == Ok ==> Evicted(commands[k].command)
    {
      var cmd := commands[k].command;
      label before:
      r := cmd.CancelShadowMethod();
      EntryCallKeepsValid@before(k);
      if r != Ok {
        return;
      }
      label cancelled:
      r := cmd.Removed();
      EntryCallKeepsValid@cancelled(k);
    }

    /** `cancelShadowMethod()` and then `removed()` on the active child at position `i`. */
    method EvictChild(i: nat) returns (r: Outcome)
      requires Valid() && kind == Group && i < |children|
      modifies children[i].command.Repr
      decreases Repr, 0, 0
      ensures Valid() && unchanged(this)
      ensures forall m :: 0 <= m < |commands| ==>
        commands[m].command.requirements == old(commands[m].command.requirements)
      ensures forall c :: 0 <= c < |children| ==>
        children[c].command.requirements == old(children[c].command.requirements)
      ensures children[i].command.Plain() ==> r == Ok
      ensures r == Ok ==> Evicted(children[i].command)
    {
      ghost var k := childSlots[i];
      var cmd := children[i].command;
      label before:
      r := cmd.CancelShadowMethod();
      EntryCallKeepsValid@before(k);
      if r != Ok {
        return;
      }
      label cancelled:
      r := cmd.Removed();
      EntryCallKeepsValid@cancelled(k);
    }

    /**
     * `endShadowMethod()` of a group: cancel and remove the current sequential
     * command, if the cursor is on one, and every active child, then forget
     * the children. Other kinds do nothing.
     */
    method EndShadowMethod() returns (r: Outcome)
      requires Valid()
      modifies Repr
      decreases Repr, 1, 1
      ensures Valid() && Stable()
      ensures Lifecycle() == old(Lifecycle())
      ensures kind != Group ==> r == Ok && children == old(children)
      ensures kind == Group && PlainEntries() ==> r == Ok
      ensures kind == Group && r == Ok ==> children == []
      ensures kind == Group && r == Ok && 0 <= currentCommandIndex < |commands| ==>
        Evicted(commands[currentCommandIndex].command)
      ensures kind == Group && r == Ok ==> forall q :: 0 <= q < |old(children)| ==> Evicted(old(children[q].command))
    {
      if kind != Group {
        return Ok;
      }
      r := EndGroup();
    }

    /** `endShadowMethod()` of a group. */
    method EndGroup() returns (r: Outcome)
      requires Valid() && kind == Group
      modifies Repr
      decreases Repr, 1, 0
      ensures Valid() && Stable()
      ensures Lifecycle() == old(Lifecycle())
      ensures PlainEntries() ==> r == Ok
      ensures r == Ok ==> children == []
      ensures r == Ok && 0 <= currentCommandIndex < |commands| ==> Evicted(commands[currentCommandIndex].command)
      ensures r == Ok ==> forall q :: 0 <= q < |old(children)| ==> Evicted(old(children[q].command))
    {
      ghost var spared: set<object> := {};
      if currentCommandIndex != -1 && currentCommandIndex < |commands| {
        r := Evict(currentCommandIndex);
        if r != Ok {
          return;
        }
        spared := commands[currentCommandIndex].command.Repr;
        CommandsApart(currentCommandIndex);
        assert commands[currentCommandIndex].command.Valid();
      }
      r := EvictChildren(spared);
      if r != Ok {
        return;
      }
      ForgetChildren();
      r := Ok;
    }

    /**
     * The loop of `endShadowMethod()` over the active children: each is
     * cancelled and removed, in order; the objects in `spared` are left alone.
     */
    method EvictChildren(ghost spared: set<object>) returns (r: Outcome)
      requires Valid() && kind == Group
      requires forall q :: 0 <= q < |children| ==> children[q].command.Repr !! spared
      modifies Repr - {this} - spared
      decreases Repr, 0, 1
      ensures Valid() && unchanged(this)
      ensures PlainEntries() ==> r == Ok
      ensures r == Ok ==> forall q :: 0 <= q < |children| ==> Evicted(children[q].command)
    {
      ChildrenPlaced();
      var i := 0;
      while i < |children|
        invariant 0 <= i <= |children|
        invariant Valid() && unchanged(this)
        invariant forall q :: 0 <= q < i ==> Evicted(children[q].command)
        invariant forall q :: i <= q < |children| ==> unchanged(children[q].command)
      {
        EntriesApart(children, childSlots, i);
        r := EvictChild(i);
        if r != Ok {
          return;
        }
        i := i + 1;
      }
      r := Ok;
    }

    /** `children.removeAllElements()`. */
    method ForgetChildren()
      requires Valid() && kind == Group
      modifies this`children, this`childSlots
      ensures Valid() && children == []
    {
      children := [];
      childSlots := [];
    }


    /** `children.removeElementAt(i)`. */
    method RemoveChildAt(i: nat)
      requires Valid() && kind == Group && i < |children|
      modifies this`children, this`childSlots
      ensures Valid()
      ensures children == old(children[..i] + children[i + 1..])
      ensures forall c :: 0 <= c < |childSlots| ==> childSlots[c] in old(childSlots)
    {
      children := children[..i] + children[i + 1..];
      childSlots := childSlots[..i] + childSlots[i + 1..];
      forall c | 0 <= c < |childSlots|
        ensures childSlots[c] == old(childSlots)[if c < i then c else c + 1]
        ensures children[c] == old(children)[if c < i then c else c + 1]
      {
      }
    }

    /** `children.addElement(commands[k])`, for the branch child entry the cursor just passed. */
    method AppendChild(k: nat)
      requires Valid() && kind == Group && initialized
      requires k < currentCommandIndex && commands[k].state == BranchChild
      requires forall c :: 0 <= c < |childSlots| ==> childSlots[c] < k
      modifies this`children, this`childSlots
      ensures Valid() && children == old(children) + [commands[k]]
    {
      children := children + [commands[k]];
      childSlots := childSlots + [k];
    }

    /** Move the cursor of a group. */
    method SetCursor(index: int)
      requires Valid() && kind == Group && -1 <= index <= |commands|
      requires forall c :: 0 <= c < |childSlots| ==> childSlots[c] < index
      modifies this`currentCommandIndex
      ensures Valid() && currentCommandIndex == index
    {
      currentCommandIndex := index;
    }

    /** The inner loop of `cancelConflicts`: whether this command requires any of `subsystems`. */
    method RequiresAnyOf(subsystems: seq<Subsystem>) returns (found: bool)
      ensures found <==> Shares(requirements, subsystems)
    {
      var n := 0;
      while n < |subsystems|
        invariant 0 <= n <= |subsystems|
        invariant forall p :: 0 <= p < n ==> subsystems[p] !in requirements
      {
        if subsystems[n] in requirements {
          return true;
        }
        n := n + 1;
      }
      found := false;
    }

    /** A valid group's active children sit at their slots, in increasing order. */
    lemma ChildrenPlaced()
      requires Valid() && kind == Group
      ensures Placed(commands, children, childSlots)
    {
    }

    /** The active children of a group of plain commands are plain. */
    lemma ChildrenPlain()
      requires Valid() && kind == Group
      ensures PlainEntries() ==> PlainFrom(children, 0)
    {
      if PlainEntries() {
        forall q | 0 <= q < |children|
          ensures children[q].command.Plain()
        {
          assert commands[childSlots[q]] == children[q];
        }
        AllPlainFrom(children, 0);
      }
    }

    /** The commands of the other entries lie outside the footprint of the command of entry `k`. */
    lemma CommandsApart(k: nat)
      requires Valid() && kind == Group && k < |commands|
      ensures forall m :: 0 <= m < |commands| && m != k ==>
        commands[m].command !in commands[k].command.Repr && commands[m].command.Repr !! commands[k].command.Repr
    {
      forall m | 0 <= m < |commands| && m != k
        ensures commands[m].command !in commands[k].command.Repr && commands[m].command.Repr !! commands[k].command.Repr
      {
        assert commands[m].command.Valid();
      }
    }

    /**
     * The commands of the other entries lie outside the footprint of the
     * command of entry `j`, and none of them is the group itself.
     */
    lemma {:induction false} EntriesApart(entries: seq<Entry>, slots: seq<nat>, j: nat)
      requires Valid() && kind == Group && Placed(commands, entries, slots) && j < |entries|
      ensures forall q :: 0 <= q < |entries| && q != j ==>
        entries[q].command != this && entries[q].command !in entries[j].command.Repr
      ensures forall q :: 0 <= q < |entries| && q != j ==> entries[q].command.Repr !! entries[j].command.Repr
    {
      forall q | 0 <= q < |entries| && q != j
        ensures entries[q].command != this && entries[q].command !in entries[j].command.Repr
        ensures entries[q].command.Repr !! entries[j].command.Repr
      {
        assert commands[slots[q]].command.Valid();
        if q < j {
          assert commands[slots[q]].command.Repr !! commands[slots[j]].command.Repr;
        } else {
          assert commands[slots[j]].command.Repr !! commands[slots[q]].command.Repr;
        }
      }
    }

    /**
     * One step of `cancelConflicts`, for the active child at position `i`,
     * which is `entries[j]` of the children the walk started from: it is
     * cancelled, removed and dropped from `children` if it requires one of
     * the subsystems of the command of entry `k`, and left alone otherwise.
     */
    method ResolveChild(k: nat, i: nat, ghost entries: seq<Entry>, ghost verdicts: seq<bool>, ghost j: nat)
        returns (r: Outcome, next: nat)
      requires Valid() && kind == Group && k < |commands|
      requires forall c :: 0 <= c < |childSlots| ==> childSlots[c] < k
      requires j < |entries| == |verdicts|
      requires children == Select(entries[..j], verdicts[..j]) + entries[j..]
      requires i == |Select(entries[..j], verdicts[..j])|
      requires verdicts[j] <==> !Shares(entries[j].command.requirements, commands[k].command.requirements)
      requires forall c :: 0 <= c < i ==> !Shares(children[c].command.requirements, commands[k].command.requirements)
      modifies entries[j].command.Repr, this`children, this`childSlots
      decreases Repr, 1
      ensures Valid() && Stable() && Lifecycle() == old(Lifecycle())
      ensures forall c :: 0 <= c < |childSlots| ==> childSlots[c] < k
      ensures forall m :: 0 <= m < |commands| ==>
        commands[m].command.requirements == old(commands[m].command.requirements)
      ensures PlainEntries() ==> r == Ok
      ensures r == Ok ==> children == Select(entries[..j + 1], verdicts[..j + 1]) + entries[j + 1..]
      ensures r == Ok ==> next == |Select(entries[..j + 1], verdicts[..j + 1])|
      ensures r == Ok ==> forall c :: 0 <= c < next ==>
        !Shares(children[c].command.requirements, commands[k].command.requirements)
      ensures r == Ok ==> Resolved(entries[j].command, verdicts[j])
    {
      MoveAcross(verdicts, j);
      FilterStep(entries, verdicts[..j], j, verdicts[j], children, i);
      var child := children[i].command;
      var conflict := child.RequiresAnyOf(commands[k].command.requirements);
      r := Ok;
      next := i;
      if conflict {
        r := DropConflict(i);
      } else {
        next := i + 1;
      }
    }

    /** Cancel, remove and drop the conflicting active child at position `i`. */
    method DropConflict(i: nat) returns (r: Outcome)
      requires Valid() && kind == Group && i < |children|
      modifies children[i].command.Repr, this`children, this`childSlots
      decreases Repr, 1
      ensures Valid()
      ensures forall m :: 0 <= m < |commands| ==>
        commands[m].command.requirements == old(commands[m].command.requirements)
      ensures forall c :: 0 <= c < |childSlots| ==> childSlots[c] in old(childSlots)
      ensures old(children[i].command).Plain() ==> r == Ok
      ensures r == Ok ==> children == old(children[..i] + children[i + 1..])
      ensures r == Ok ==> forall c :: 0 <= c < i ==>
        children[c].command.requirements == old(children[c].command.requirements)
      ensures r == Ok ==> Evicted(old(children[i].command))
    {
      assert commands[childSlots[i]].command.Valid();
      r := EvictChild(i);
      if r != Ok {
        return;
      }
      ghost var kept := children[..i];
      RemoveChildAt(i);
      assert children[..i] == kept;
    }

    /**
     * The walk of `cancelConflicts` from the active child at position `i`,
     * which is `entries[j]` of the children the walk started from.
     */
    method CancelConflictsFrom(k: nat, i: nat, ghost entries: seq<Entry>, ghost slots: seq<nat>,
                               ghost verdicts: seq<bool>, ghost j: nat, ghost spared: set<object>) returns (r: Outcome)
      requires Valid() && kind == Group && k < |commands|
      requires forall c :: 0 <= c < |childSlots| ==> childSlots[c] < k
      requires j <= |entries| == |verdicts| == |slots|
      requires children == Select(entries[..j], verdicts[..j]) + entries[j..]
      requires i == |Select(entries[..j], verdicts[..j])|
      requires Placed(commands, entries, slots)
      requires forall q :: j <= q < |entries| ==>
        (verdicts[q] <==> !Shares(entries[q].command.requirements, commands[k].command.requirements))
      requires forall c :: 0 <= c < i ==> !Shares(children[c].command.requirements, commands[k].command.requirements)
      requires this !in spared && forall q :: j <= q < |entries| ==> entries[q].command.Repr !! spared
      modifies Repr - spared
      decreases Repr, 2, |entries| - j
      ensures Valid() && Stable() && Lifecycle() == old(Lifecycle())
      ensures forall c :: 0 <= c < |childSlots| ==> childSlots[c] < k
      ensures forall m :: 0 <= m < |commands| ==>
        commands[m].command.requirements == old(commands[m].command.requirements)
      ensures PlainEntries() ==> r == Ok
      ensures r == Ok ==> children == Select(entries, verdicts)
      ensures r == Ok ==> forall c :: 0 <= c < |children| ==>
        !Shares(children[c].command.requirements, commands[k].command.requirements)
      ensures forall q :: 0 <= q < j ==> unchanged(entries[q].command)
      ensures r == Ok ==> forall q :: j <= q < |entries| ==> Resolved(entries[q].command, verdicts[q])
    {
      if i == |children| {
        assert j == |entries|;
        assert entries[..j] == entries && verdicts[..j] == verdicts;
        return Ok;
      }
      EntriesApart(entries, slots, j);
      var next;
      r, next := ResolveChild(k, i, entries, verdicts, j);
      if r != Ok {
        return;
      }
      label resolved:
      r := CancelConflictsFrom(k, next, entries, slots, verdicts, j + 1, spared);
      if r == Ok {
        forall q | j <= q < |entries|
          ensures Resolved(entries[q].command, verdicts[q])
        {
          var c := entries[q].command;
          if q == j {
            assert unchanged@resolved(c);
          }
        }
      }
    }

    /**
     * `cancelConflicts(command)` for the command of entry `k`: every active
     * child that requires one of its subsystems is cancelled, removed and
     * dropped from `children`; the others stay, in their order.
     */
    method CancelConflicts(k: nat) returns (r: Outcome)
      requires Valid() && kind == Group && k < |commands|
      requires forall c :: 0 <= c < |childSlots| ==> childSlots[c] < k
      modifies Repr
      decreases Repr, 3
      ensures Valid() && Stable() && Lifecycle() == old(Lifecycle())
      ensures forall c :: 0 <= c < |childSlots| ==> childSlots[c] < k
      ensures PlainEntries() ==> r == Ok
      ensures r == Ok ==> children == Select(old(children), old(Survivors(children, commands[k].command.requirements)))
      ensures r == Ok ==> forall c :: 0 <= c < |children| ==>
        !Shares(children[c].command.requirements, commands[k].command.requirements)
      ensures r == Ok ==> forall q :: 0 <= q < |old(children)| ==>
        Resolved(old(children[q].command), old(Survivors(children, commands[k].command.requirements))[q])
      ensures unchanged(commands[k].command)
    {
      ghost var entries := children;
      ghost var verdicts := Survivors(children, commands[k].command.requirements);
      ChildrenPlaced();
      CommandsApart(k);
      r := CancelConflictsFrom(k, 0, children, childSlots, verdicts, 0, commands[k].command.Repr);
    }

    /** `startRunning()` on the command of entry `k`. */
    method StartEntry(k: nat)
      requires Valid() && kind == Group && k < |commands|
      modifies commands[k].command`running, commands[k].command`timerStarted
      ensures Valid() && unchanged(this)
      ensures commands[k].command.running && !commands[k].command.timerStarted
    {
      var cmd := commands[k].command;
      label before:
      cmd.StartRunning();
      EntryCallKeepsValid@before(k);
    }

    /**
     * One turn of the command of entry `e` (entry `k` of the group) inside
     * `executeShadowMethod`: cancel it if the entry timed out, then `run()` it.
     */
    method RunEntry(ghost k: nat, e: Entry, sched: PendingStarts) returns (r: Outcome, keep: bool)
      requires Valid() && kind == Group && k < |commands| && commands[k] == e
      modifies e.command.Repr, sched
      decreases Repr, 0
      ensures Valid() && unchanged(this) && e.command.Repr == old(e.command.Repr)
      ensures e.command.userFinished == old(e.command.userFinished)
      ensures e.command.requirements == old(e.command.requirements)
      ensures e.command.Plain() ==> r == Ok
      ensures old(e.command.canceled) ==> !keep
      ensures r != Ok ==> !keep
      ensures r == Ok ==> e.command.canceled == old(CanceledAtTurn(e))
      ensures r == Ok ==> (keep <==> !e.command.canceled && !e.command.IsFinished())
      ensures r == Ok && e.command.canceled ==>
        e.command.hooks == old(e.command.hooks) && e.command.initialized == old(e.command.initialized)
      ensures r == Ok && !e.command.canceled ==>
        e.command.initialized &&
        e.command.hooks == old(e.command.hooks) + (if old(e.command.initialized) then [] else [Initialize]) + [Execute]
    {
      var cmd := e.command;
      r := Ok;
      if EntryTimedOut(e) {
        label before:
        r := cmd.CancelShadowMethod();
        EntryCallKeepsValid@before(k);
        if r != Ok {
          return r, false;
        }
      }
      label ready:
      r, keep := cmd.Run(sched);
      EntryCallKeepsValid@ready(k);
    }

    /** `removed()` on the command of entry `k`. */
    method RemoveEntry(ghost k: nat, e: Entry) returns (r: Outcome)
      requires Valid() && kind == Group && k < |commands| && commands[k] == e
      modifies e.command.Repr
      decreases Repr, 0
      ensures Valid() && unchanged(this) && e.command.Repr == old(e.command.Repr)
      ensures e.command.userFinished == old(e.command.userFinished)
      ensures e.command.requirements == old(e.command.requirements)
      ensures e.command.Plain() ==> r == Ok
      ensures r == Ok ==> e.command.completed && !e.command.running && !e.command.initialized && !e.command.canceled
      ensures r == Ok ==>
        e.command.hooks == old(e.command.hooks) + e.command.RemovalHooks(old(e.command.initialized), old(e.command.canceled))
    {
      label before:
      r := e.command.Removed();
      EntryCallKeepsValid@before(k);
    }

    /** `start()` on the command of a branch peer entry, which its group always refuses. */
    method StartPeer(k: nat, sched: PendingStarts) returns (r: Outcome)
      requires Valid() && kind == Group && k < |commands|
      modifies commands[k].command`locked, commands[k].command`completed, sched
      ensures Valid()
      ensures unchanged(this)
      ensures sched.added == old(sched.added)
      ensures r == IllegalUseOfCommand && commands[k].command.locked
    {
      var cmd := commands[k].command;
      assert cmd.parent == this;
      label before:
      r := cmd.Start(sched);
      EntryCallKeepsValid@before(k);
    }

    /**
     * The turn of the active child at position `i`, which is `entries[|done|]`
     * of the children the loop started from: the selection of the decided
     * children grows by it when it stays.
     */
    method ChildTurn(i: nat, sched: PendingStarts, ghost entries: seq<Entry>, ghost done: seq<bool>)
        returns (r: Outcome, keep: bool, next: nat, ghost after: seq<bool>)
      requires Valid() && kind == Group && |done| < |entries|
      requires children == Select(entries[..|done|], done) + entries[|done|..]
      requires i == |Select(entries[..|done|], done)|
      modifies entries[|done|].command.Repr, this`children, this`childSlots, sched
      decreases Repr, 2
      ensures Valid() && Stable() && Lifecycle() == old(Lifecycle())
      ensures after == done + [keep] && next == if keep then i + 1 else i
      ensures PlainFrom(entries, |done|) ==> r == Ok && PlainFrom(entries, |after|)
      ensures r == Ok ==> children == Select(entries[..|after|], after) + entries[|after|..]
      ensures r == Ok ==> next == |Select(entries[..|after|], after)|
      ensures entries[|done|].command.Repr == old(entries[|done|].command.Repr)
      ensures r == Ok ==> Turned(entries[|done|].command, old(StartOfTurn(entries[|done|])), keep)
      ensures forall q | 0 <= q < |entries| && entries[q].command != this ::
        entries[q].command !in old(entries[|done|].command.Repr) ==> unchanged(entries[q].command)
    {
      ghost var before := children;
      FilterStep(entries, done, |done|, true, before, i);
      r, keep := RunChild(i, sched);
      after := done + [keep];
      next := if keep then i + 1 else i;
      if r == Ok {
        FilterStep(entries, done, |done|, keep, before, i);
      }
    }

    /**
     * `run()` on the active child at position `i`; once it answers false, it
     * is removed and leaves `children`.
     */
    method RunChild(i: nat, sched: PendingStarts) returns (r: Outcome, keep: bool)
      requires Valid() && kind == Group && i < |children|
      modifies children[i].command.Repr, this`children, this`childSlots, sched
      decreases Repr, 1
      ensures Valid() && Stable() && Lifecycle() == old(Lifecycle())
      ensures old(children[i].command).Plain() ==> r == Ok
      ensures r == Ok && keep ==> children == old(children)
      ensures r == Ok && !keep ==> children == old(children[..i] + children[i + 1..])
      ensures old(children[i].command).Repr == old(children[i].command.Repr)
      ensures r == Ok ==> Turned(old(children[i].command), old(StartOfTurn(children[i])), keep)
    {
      var entry := children[i];
      r, keep := RunEntry(childSlots[i], entry, sched);
      if r != Ok || keep {
        return;
      }
      r := DropChild(i);
    }

    /** `removed()` on the active child at position `i`, which then leaves `children`. */
    method DropChild(i: nat) returns (r: Outcome)
      requires Valid() && kind == Group && i < |children|
      modifies children[i].command.Repr, this`children, this`childSlots
      decreases Repr, 1
      ensures Valid() && old(children[i].command).Repr == old(children[i].command.Repr)
      ensures old(children[i].command).userFinished == old(children[i].command.userFinished)
      ensures old(children[i].command).Plain() ==> r == Ok
      ensures r == Ok ==> children == old(children[..i] + children[i + 1..])
      ensures r == Ok ==>
        var c := old(children[i].command);
        && c.completed && !c.running && !c.initialized && !c.canceled
        && c.hooks == old(c.hooks) + c.RemovalHooks(old(c.initialized), old(c.canceled))
    {
      assert commands[childSlots[i]].command.Valid();
      r := RemoveEntry(childSlots[i], children[i]);
      if r != Ok {
        return;
      }
      RemoveChildAt(i);
    }

    /**
     * The children loop of `executeShadowMethod`, from position `i`: the
     * children the loop started from are `entries`, of which the first
     * `|done|` have had their turn, `done` telling which of them stayed.
     * Each active child takes its turn; one whose `run()` answers false is
     * removed and leaves `children`, the others stay, in their order.
     */
    method RunChildrenFrom(i: nat, sched: PendingStarts, ghost entries: seq<Entry>, ghost slots: seq<nat>,
                           ghost done: seq<bool>, ghost later: set<Command>) returns (r: Outcome, ghost kept: seq<bool>)
      requires Valid() && kind == Group && |done| <= |entries| && Placed(commands, entries, slots)
      requires children == Select(entries[..|done|], done) + entries[|done|..]
      requires i == |Select(entries[..|done|], done)|
      requires this !in later && forall q :: |done| <= q < |entries| ==> entries[q].command.Repr <= later
      modifies later, this`children, this`childSlots, sched
      decreases Repr, 3, |entries| - |done|
      ensures Valid()
      ensures PlainFrom(entries, |done|) ==> r == Ok
      ensures r == Ok ==> |kept| == |entries| && kept[..|done|] == done && children == Select(entries, kept)
      ensures r == Ok ==> forall q :: |done| <= q < |entries| ==>
        Turned(entries[q].command, old(StartOfTurn(entries[q])), kept[q])
    {
      if i == |children| {
        assert |done| == |entries|;
        assert entries[..|done|] == entries;
        return Ok, done;
      }
      assert |done| < |entries|;
      EntriesApart(entries, slots, |done|);
      ghost var footprint := entries[|done|].command.Repr;
      var keep, next;
      ghost var after;
      r, keep, next, after := ChildTurn(i, sched, entries, done);
      if r != Ok {
        return r, [];
      }
      label turned:
      r, kept := RunChildrenFrom(next, sched, entries, slots, after, later - footprint);
      if r == Ok {
        assert kept[..|done|] == after[..|done|];
        forall q | |done| <= q < |entries|
          ensures Turned(entries[q].command, old(StartOfTurn(entries[q])), kept[q])
        {
          if q == |done| {
            assert kept[q] == keep;
          }
        }
      }
    }

    /** The children loop of `executeShadowMethod`. */
    method RunChildren(sched: PendingStarts) returns (r: Outcome, ghost kept: seq<bool>)
      requires Valid() && kind == Group
      modifies Repr, sched
      decreases Repr, 4
      ensures Valid() && Stable() && Lifecycle() == old(Lifecycle())
      ensures PlainEntries() ==> r == Ok
      ensures r == Ok ==> |kept| == |old(children)| && children == Select(old(children), kept)
      ensures r == Ok ==> forall q :: 0 <= q < |old(children)| ==>
        Turned(old(children[q].command), old(StartOfTurn(children[q])), kept[q])
    {
      assert children[..0] == [] && children[0..] == children;
      ChildrenPlaced();
      ChildrenPlain();
      r, kept := RunChildrenFrom(0, sched, children, childSlots, [], Repr - {this});
    }

    /**
     * The sequence loop of `executeShadowMethod`, from the entry at the
     * cursor; `firstRun` says whether a sequential command there is about to
     * get its first turn. A sequential command is started on its first turn
     * (evicting the children it conflicts with) and runs each turn; once it
     * answers false it is removed and the cursor moves on. A branch child is
     * passed over: the children it conflicts with are evicted, and it is
     * started and becomes an active child. A branch peer is passed over and
     * started, which its group refuses.
     */
    method AdvanceSequence(sched: PendingStarts, firstRun: bool) returns (r: Outcome)
      requires Valid() && kind == Group && initialized && 0 <= currentCommandIndex
      modifies Repr, sched
      decreases Repr, 5, |commands| - currentCommandIndex
      ensures Valid() && Stable() && Flags() == old(Flags())
      ensures old(currentCommandIndex) <= currentCommandIndex <= |commands|
      ensures PlainEntries() && NoPeers() ==> r == Ok
      ensures r == Ok && currentCommandIndex < |commands| ==>
        && commands[currentCommandIndex].state == InSequence
        && !commands[currentCommandIndex].command.IsFinished()
      ensures r == Ok ==> forall s :: old(currentCommandIndex) <= s < currentCommandIndex ==>
        commands[s].state != BranchPeer
    {
      if currentCommandIndex == |commands| {
        return Ok;
      }
      var k := currentCommandIndex;
      match commands[k].state
      case InSequence =>
        var moved;
        r, moved := SequenceTurn(sched, firstRun);
        if moved {
          r := AdvanceSequence(sched, true);
        }
      case BranchPeer =>
        SetCursor(k + 1);
        r := StartPeer(k, sched);
      case BranchChild =>
        r := PassChild();
        if r == Ok {
          r := AdvanceSequence(sched, firstRun);
        }
    }

    /**
     * The turn of the sequential command at the cursor: on its first turn it
     * is started and the children it conflicts with are evicted; then it runs,
     * and once it answers false it is removed and the cursor moves past it.
     */
    method SequenceTurn(sched: PendingStarts, firstRun: bool) returns (r: Outcome, moved: bool)
      requires Valid() && kind == Group && initialized && 0 <= currentCommandIndex < |commands|
      requires commands[currentCommandIndex].state == InSequence
      modifies Repr, sched
      decreases Repr, 4
      ensures Valid() && Stable() && Flags() == old(Flags())
      ensures currentCommandIndex == old(currentCommandIndex) + (if moved then 1 else 0)
      ensures moved ==> r == Ok
      ensures PlainEntries() ==> r == Ok
      ensures moved ==>
        var c := commands[old(currentCommandIndex)].command;
        c.completed && !c.running && !c.initialized
      ensures r == Ok && firstRun ==> forall c :: 0 <= c < |children| ==>
        !Shares(children[c].command.requirements, commands[old(currentCommandIndex)].command.requirements)
      ensures r == Ok && !moved ==> !commands[currentCommandIndex].command.IsFinished()
      ensures r == Ok && !firstRun ==>
        Turned(commands[old(currentCommandIndex)].command, old(StartOfTurn(commands[currentCommandIndex])), !moved)
      ensures r == Ok && firstRun ==>
        var c := commands[old(currentCommandIndex)].command;
        Turned(c, TurnStart(old(c.canceled), old(c.initialized), old(c.hooks)), !moved)
    {
      var k := currentCommandIndex;
      if firstRun {
        moved := false;
        r := StartSequential(k);
        if r != Ok {
          return;
        }
      }
      r, moved := RunSequential(sched);
    }

    /**
     * The run of the sequential command at the cursor, which has been
     * started: once `run()` answers false it is removed and the cursor
     * moves past it.
     */
    method RunSequential(sched: PendingStarts) returns (r: Outcome, moved: bool)
      requires Valid() && kind == Group && 0 <= currentCommandIndex < |commands|
      modifies commands[currentCommandIndex].command.Repr, this`currentCommandIndex, sched
      decreases Repr, 2
      ensures Valid() && Stable() && Flags() == old(Flags())
      ensures currentCommandIndex == old(currentCommandIndex) + (if moved then 1 else 0)
      ensures moved ==> r == Ok
      ensures PlainEntries() ==> r == Ok
      ensures r == Ok && !moved ==> !commands[currentCommandIndex].command.IsFinished()
      ensures r == Ok ==>
        Turned(commands[old(currentCommandIndex)].command, old(StartOfTurn(commands[currentCommandIndex])), !moved)
      ensures children == old(children)
      ensures forall m :: 0 <= m < |commands| ==>
        commands[m].command.requirements == old(commands[m].command.requirements)
      ensures forall c :: 0 <= c < |children| ==>
        children[c].command.requirements == old(children[c].command.requirements)
    {
      var k := currentCommandIndex;
      var entry := commands[k];
      CommandsApart(k);
      moved := false;
      var keep;
      r, keep := RunEntry(k, entry, sched);
      if r != Ok || keep {
        return;
      }
      r := FinishSequential(k, entry);
      moved := r == Ok;
    }

    /**
     * The first turn of the sequential command of entry `k`: it is started,
     * and the active children it conflicts with are evicted.
     */
    method StartSequential(k: nat) returns (r: Outcome)
      requires Valid() && kind == Group && k == currentCommandIndex && k < |commands|
      modifies Repr
      decreases Repr, 4
      ensures Valid() && Stable() && Lifecycle() == old(Lifecycle())
      ensures PlainEntries() ==> r == Ok
      ensures r == Ok ==> forall c :: 0 <= c < |children| ==>
        !Shares(children[c].command.requirements, commands[k].command.requirements)
      ensures
        var c := commands[k].command;
        && c.running && !c.timerStarted && c.canceled == old(c.canceled) && c.userFinished == old(c.userFinished)
        && c.initialized == old(c.initialized) && c.hooks == old(c.hooks)
    {
      StartEntry(k);
      r := CancelConflicts(k);
    }

    /** The sequential command of entry `k` answered false: it is removed and the cursor moves past it. */
    method FinishSequential(k: nat, e: Entry) returns (r: Outcome)
      requires Valid() && kind == Group && k == currentCommandIndex && k < |commands| && commands[k] == e
      modifies e.command.Repr, this`currentCommandIndex
      decreases Repr, 1
      ensures Valid()
      ensures r == Ok ==> currentCommandIndex == k + 1
      ensures r != Ok ==> currentCommandIndex == k
      ensures e.command.userFinished == old(e.command.userFinished)
      ensures e.command.requirements == old(e.command.requirements)
      ensures e.command.Plain() ==> r == Ok
      ensures r == Ok ==> e.command.completed && !e.command.running && !e.command.initialized && !e.command.canceled
      ensures r == Ok ==>
        e.command.hooks == old(e.command.hooks) + e.command.RemovalHooks(old(e.command.initialized), old(e.command.canceled))
    {
      r := RemoveEntry(k, e);
      if r != Ok {
        return;
      }
      SetCursor(k + 1);
    }

    /**
     * Passing over the branch child entry at the cursor: the children it
     * conflicts with are evicted, and it is started and becomes the last
     * active child.
     */
    method PassChild() returns (r: Outcome)
      requires Valid() && kind == Group && initialized && 0 <= currentCommandIndex < |commands|
      requires commands[currentCommandIndex].state == BranchChild
      modifies Repr
      decreases Repr, 4
      ensures Valid() && Stable() && Flags() == old(Flags())
      ensures currentCommandIndex == old(currentCommandIndex) + 1
      ensures PlainEntries() ==> r == Ok
      ensures r == Ok ==> forall c :: 0 <= c < |children| - 1 ==>
        !Shares(children[c].command.requirements, commands[old(currentCommandIndex)].command.requirements)
      ensures r == Ok ==>
        && |children| > 0 && children[|children| - 1] == commands[old(currentCommandIndex)]
        && commands[old(currentCommandIndex)].command.running
    {
      var k := currentCommandIndex;
      SetCursor(k + 1);
      r := EvictConflicts(k);
      if r != Ok {
        return;
      }
      JoinChild(k);
    }

    /** `cancelConflicts` for the branch child of entry `k`, which the cursor just passed. */
    method EvictConflicts(k: nat) returns (r: Outcome)
      requires Valid() && kind == Group && k + 1 == currentCommandIndex
      requires forall c :: 0 <= c < |childSlots| ==> childSlots[c] < k
      modifies Repr
      decreases Repr, 4
      ensures Valid() && Stable() && Lifecycle() == old(Lifecycle())
      ensures forall c :: 0 <= c < |childSlots| ==> childSlots[c] < k
      ensures PlainEntries() ==> r == Ok
      ensures r == Ok ==> forall c :: 0 <= c < |children| ==>
        !Shares(children[c].command.requirements, commands[k].command.requirements)
    {
      r := CancelConflicts(k);
    }

    /** `startRunning()` on the branch child of entry `k`, which then joins `children`. */
    method JoinChild(k: nat)
      requires Valid() && kind == Group && initialized
      requires k < currentCommandIndex && commands[k].state == BranchChild
      requires forall c :: 0 <= c < |childSlots| ==> childSlots[c] < k
      modifies commands[k].command`running, commands[k].command`timerStarted, this`children, this`childSlots
      ensures Valid() && children == old(children) + [commands[k]]
      ensures commands[k].command.running
    {
      StartEntry(k);
      AppendChild(k);
    }

    /**
     * `executeShadowMethod()`: a group moves its cursor to the first entry on
     * its first turn, runs its sequence and then its active children. Other
     * kinds do nothing.
     */
    method ExecuteShadowMethod(sched: PendingStarts) returns (r: Outcome)
      requires Valid() && initialized
      modifies Repr, sched
      decreases Repr, 6
      ensures Valid() && Stable() && Flags() == old(Flags())
      ensures kind != Group ==> r == Ok && unchanged(Repr) && unchanged(sched)
      ensures kind == Group && PlainEntries() && NoPeers() ==> r == Ok
      ensures kind == Group ==> old(currentCommandIndex) <= currentCommandIndex && 0 <= currentCommandIndex <= |commands|
      ensures kind == Group && r == Ok && currentCommandIndex < |commands| ==>
        commands[currentCommandIndex].state == InSequence
    {
      if kind != Group {
        return Ok;
      }
      var firstRun := false;
      if currentCommandIndex == -1 {
        firstRun := true;
        SetCursor(0);
      }
      r := AdvanceSequence(sched, firstRun);
      if r != Ok {
        return;
      }
      ghost var kept;
      r, kept := RunChildren(sched);
    }

    /** Record the branch a conditional picked. */
    method Choose(c: Command?)
      requires Valid() && kind == Kind.Conditional && (c == null || c == onTrue || c == onFalse)
      modifies this`chosen
      ensures Valid() && chosen == c
    {
      chosen := c;
    }

    /**
     * `initializeShadowMethod()`: a group puts its cursor before the first
     * entry; a conditional picks `onTrue` or `onFalse` by `condition()`, and
     * clears the requirements of and starts the chosen command, if any.
     */
    method InitializeShadowMethod(sched: PendingStarts) returns (r: Outcome)
      requires Valid() && (kind == Group ==> children == [])
      modifies Repr, sched
      decreases Repr, 1
      ensures Valid() && Stable() && Flags() == old(Flags())
      ensures kind == Group ==> r == Ok && currentCommandIndex == -1 && unchanged(sched)
      ensures kind != Group && kind != Kind.Conditional ==> r == Ok && unchanged(Repr) && unchanged(sched)
      ensures kind == Kind.Conditional ==> chosen == (if conditionValue then onTrue else onFalse)
      ensures kind == Kind.Conditional && chosen == null ==> r == Ok && unchanged(sched)
      ensures kind == Kind.Conditional && chosen != null ==>
        var c := chosen;
        && c.requirements == [] && c.locked && c.parent == old(c.parent)
        && (r == Ok <==> old(c.parent) == null)
        && (r == Ok ==> sched.added == old(sched.added) + [c] && !c.completed)
        && (r != Ok ==> sched.added == old(sched.added))
      ensures kind == Kind.Conditional && chosen != onTrue ==> unchanged(onTrue)
      ensures kind == Kind.Conditional && onFalse != null && chosen != onFalse ==> unchanged(onFalse)
    {
      r := Ok;
      if kind == Group {
        SetCursor(-1);
      } else if kind == Kind.Conditional {
        assert onTrue in onTrue.Repr;
        Choose(if conditionValue then onTrue else onFalse);
        if chosen != null {
          r := StartChosen(sched);
        }
      }
    }

    /** A conditional clears the requirements of its chosen command and starts it. */
    method StartChosen(sched: PendingStarts) returns (r: Outcome)
      requires Valid() && kind == Kind.Conditional && chosen != null
      modifies chosen`requirements, chosen`locked, chosen`completed, sched
      ensures Valid()
      ensures chosen.requirements == [] && chosen.locked
      ensures old(chosen.parent) == null ==> r == Ok && !chosen.completed && sched.added == old(sched.added) + [chosen]
      ensures old(chosen.parent) != null ==> r == IllegalUseOfCommand && sched.added == old(sched.added)
    {
      var c := chosen;
      label before:
      c.ClearRequirements();
      BranchCallKeepsValid@before(c);
      label cleared:
      r := c.Start(sched);
      BranchCallKeepsValid@cleared(c);
    }

    /** `initialized = true` and `startTiming()`, which resets the stopwatch. */
    method MarkInitialized()
      requires Valid()
      modifies this`initialized, this`timerSeconds
      ensures Valid() && initialized && timerSeconds == 0.0
    {
      initialized := true;
      timerSeconds := 0.0;
    }

    /**
     * `run()`: a canceled command answers false and does nothing; otherwise
     * it is initialized on its first turn, executed, and answers whether it
     * is not finished.
     */
    method Run(sched: PendingStarts) returns (r: Outcome, keep: bool)
      requires Valid()
      modifies Repr, sched
      decreases Repr, 7
      ensures Valid() && Stable()
      ensures running == old(running) && completed == old(completed) && canceled == old(canceled)
      ensures old(canceled) ==> r == Ok && !keep && unchanged(Repr) && unchanged(sched)
      ensures !old(canceled) && r == Ok ==> initialized && keep == !IsFinished()
      ensures !old(canceled) && r == Ok ==>
        hooks == old(hooks) + (if old(initialized) then [] else [Initialize]) + [Execute]
      ensures !old(canceled) ==> initialized
      ensures r != Ok ==> !keep
      ensures Plain() ==> r == Ok
      ensures kind == Group && PlainEntries() && NoPeers() ==> r == Ok
      ensures kind == Kind.Conditional ==>
        (r == Ok <==> old(canceled) || old(initialized) || chosen == null || chosen.parent == null)
    {
      if canceled {
        return Ok, false;
      }
      if !initialized {
        MarkInitialized();
        r := InitializeShadowMethod(sched);
        if r != Ok {
          return r, false;
        }
        RecordHook(Initialize);
      }
      r := ExecuteShadowMethod(sched);
      if r != Ok {
        return r, false;
      }
      RecordHook(Execute);
      keep := !IsFinished();
    }

    /**
     * The loop that ends every `add` method: each subsystem of `reqs`, in
     * order, goes to `requires`, the first refusal ending the loop.
     */
    method RequireEach(reqs: seq<Subsystem>) returns (r: Outcome)
      requires Valid()
      modifies this`requirements
      ensures Valid()
      ensures locked && reqs != [] ==> r == IllegalUseOfCommand && requirements == old(requirements)
      ensures !locked || reqs == [] ==> r == Ok && requirements == UtilSet.InsertAll(old(requirements), reqs)
    {
      var i := 0;
      while i < |reqs|
        invariant 0 <= i <= |reqs|
        invariant Valid()
        invariant UtilSet.InsertAll(requirements, reqs[i..]) == UtilSet.InsertAll(old(requirements), reqs)
        invariant locked ==> i == 0 && requirements == old(requirements)
      {
        assert reqs[i..][0] == reqs[i] && reqs[i..][1..] == reqs[i + 1..];
        r := Requires(reqs[i]);
        if r != Ok {
          return;
        }
        i := i + 1;
      }
      assert reqs[i..] == [];
      r := Ok;
    }

    /**
     * `requireAll()` of a conditional, which nothing calls: the requirements
     * of `onTrue` and then those of `onFalse`, if any, go to `requires`.
     */
    method RequireBranches() returns (r: Outcome)
      requires Valid() && kind == Kind.Conditional
      modifies this`requirements
      ensures Valid()
      ensures !locked ==> r == Ok
      ensures !locked ==>
        var withTrue := UtilSet.InsertAll(old(requirements), onTrue.requirements);
        requirements == UtilSet.InsertAll(withTrue, if onFalse != null then onFalse.requirements else [])
      ensures r == Ok ==> forall s :: s in onTrue.requirements ==> s in requirements
      ensures r == Ok && onFalse != null ==> forall s :: s in onFalse.requirements ==> s in requirements
      ensures locked && (onTrue.requirements != [] || (onFalse != null && onFalse.requirements != [])) ==>
        r == IllegalUseOfCommand && requirements == old(requirements)
    {
      assert onTrue in onTrue.Repr;
      r := RequireEach(onTrue.requirements);
      if r != Ok {
        return;
      }
      ghost var middle := requirements;
      UtilSet.InsertAllContains(old(requirements), onTrue.requirements);
      if onFalse != null {
        r := RequireEach(onFalse.requirements);
        UtilSet.InsertAllContains(middle, onFalse.requirements);
      } else {
        assert UtilSet.InsertAll(requirements, []) == requirements;
      }
    }

    /** What an `add` method did to the group, given its outcome. */
    twostate predicate AddedAs(command: Command, state: EntryState, timeout: real, r: Outcome)
      reads this, command
    {
      && (r != Ok ==>
        && commands == old(commands) && requirements == old(requirements) && Repr == old(Repr))
      && (r == Ok ==>
        && commands == old(commands) + [Entry(command, state, timeout)]
        && requirements == UtilSet.InsertAll(old(requirements), command.requirements)
        && Repr == old(Repr) + command.Repr
        && command.parent == this && command.locked)
    }

    /**
     * The part every `add` method shares once the group accepted the change:
     * the command joins the group, which then requires what the command does.
     */
    method Append(command: Command, state: EntryState, timeout: real) returns (r: Outcome)
      requires Valid() && kind == Group && !locked && ValidTimeout(timeout) && command.Valid()
      requires command.parent == null ==> Repr !! command.Repr
      modifies this, command`locked, command`parent
      ensures Valid() && AddedAs(command, state, timeout, r)
      ensures r == Ok <==> old(command.parent) == null
      ensures r == Ok ==> forall s :: s in command.requirements ==> s in requirements
      ensures locked == old(locked) && Lifecycle() == old(Lifecycle())
    {
      r := command.SetParent(this);
      if r != Ok {
        return;
      }
      Enroll(Entry(command, state, timeout));
      assert requirements == old(requirements);
      r := RequireEach(command.requirements);
      UtilSet.InsertAllContains(old(requirements), command.requirements);
    }

    /** `commands.addElement(e)`: the group takes over the footprint of the entry's command. */
    method Enroll(e: Entry)
      requires Valid() && kind == Group && ValidTimeout(e.timeout)
      requires e.command.Valid() && e.command.parent == this && Repr !! e.command.Repr
      modifies this`commands, this`Repr
      ensures Valid() && commands == old(commands) + [e] && Repr == old(Repr) + e.command.Repr
    {
      commands := commands + [e];
      Repr := Repr + e.command.Repr;
      assert Valid() by {
        forall m | 0 <= m < |commands| - 1
          ensures commands[m].command.Valid() && commands[m].command.Repr !! e.command.Repr
        {
          assert old(commands[m].command.Valid());
        }
      }
    }

    /** `addSequential(command)`. */
    method AddSequential(command: Command) returns (r: Outcome)
      requires Valid() && kind == Group && command.Valid()
      requires command.parent == null ==> Repr !! command.Repr
      modifies this, command`locked, command`parent
      ensures Valid() && AddedAs(command, InSequence, NO_TIMEOUT, r)
      ensures r == Ok <==> !old(locked) && old(command.parent) == null
      ensures old(locked) ==> r == IllegalUseOfCommand && unchanged(this) && unchanged(command)
      ensures forall s :: r == Ok && s in command.requirements ==> s in requirements
    {
      r := Validate();
      if r != Ok {
        return;
      }
      r := Append(command, InSequence, NO_TIMEOUT);
    }

    /** `addSequential(command, timeout)`: a negative timeout is refused. */
    method AddSequentialWithTimeout(command: Command, timeout: real) returns (r: Outcome)
      requires Valid() && kind == Group && command.Valid()
      requires command.parent == null ==> Repr !! command.Repr
      modifies this, command`locked, command`parent
      ensures Valid() && AddedAs(command, InSequence, timeout, r)
      ensures r == Ok <==> !old(locked) && timeout >= 0.0 && old(command.parent) == null
      ensures old(locked) ==> r == IllegalUseOfCommand && unchanged(this) && unchanged(command)
      ensures !old(locked) && timeout < 0.0 ==> r == IllegalArgument && unchanged(this) && unchanged(command)
      ensures forall s :: r == Ok && s in command.requirements ==> s in requirements
    {
      r := Validate();
      if r != Ok {
        return;
      }
      if timeout < 0.0 {
        return IllegalArgument;
      }
      r := Append(command, InSequence, timeout);
    }

    /** `addParallel(command)`. */
    method AddParallel(command: Command) returns (r: Outcome)
      requires Valid() && kind == Group && command.Valid()
      requires command.parent == null ==> Repr !! command.Repr
      modifies this, command`locked, command`parent
      ensures Valid() && AddedAs(command, BranchChild, NO_TIMEOUT, r)
      ensures r == Ok <==> !old(locked) && old(command.parent) == null
      ensures old(locked) ==> r == IllegalUseOfCommand && unchanged(this) && unchanged(command)
      ensures forall s :: r == Ok && s in command.requirements ==> s in requirements
    {
      r := Validate();
      if r != Ok {
        return;
      }
      r := Append(command, BranchChild, NO_TIMEOUT);
    }

    /** `addParallel(command, timeout)`: a negative timeout is refused. */
    method AddParallelWithTimeout(command: Command, timeout: real) returns (r: Outcome)
      requires Valid() && kind == Group && command.Valid()
      requires command.parent == null ==> Repr !! command.Repr
      modifies this, command`locked, command`parent
      ensures Valid() && AddedAs(command, BranchChild, timeout, r)
      ensures r == Ok <==> !old(locked) && timeout >= 0.0 && old(command.parent) == null
      ensures old(locked) ==> r == IllegalUseOfCommand && unchanged(this) && unchanged(command)
      ensures !old(locked) && timeout < 0.0 ==> r == IllegalArgument && unchanged(this) && unchanged(command)
      ensures forall s :: r == Ok && s in command.requirements ==> s in requirements
    {
      r := Validate();
      if r != Ok {
        return;
      }
      if timeout < 0.0 {
        return IllegalArgument;
      }
      r := Append(command, BranchChild, timeout);
    }
  }
}

=== FILE: linked_list.dfy ===
/**
 * `LinkedListElement`: one node of a doubly-linked list, with nullable
 * `next`/`previous` links and a payload. `add` splices a node in right after
 * this one and `remove` unlinks this node from its neighbours.
 */
module LinkedLists {

  datatype Option<T> = None | Some(value: T)

  class LinkedListElement<T> {
    var next: LinkedListElement?<T>
    var previous: LinkedListElement?<T>
    var data: Option<T>

    constructor ()
      ensures next == null && previous == null && data == None
    {
      next := null;
      previous := null;
      data := None;
    }

    method SetData(newData: T)
      modifies this
      ensures GetData() == Some(newData)
      ensures next == old(next) && previous == old(previous)
    {
      data := Some(newData);
    }

    /** `getData()`: the last payload set, or none. */
    function GetData(): (r: Option<T>)
      reads this
      ensures r == data
    {
      data
    }

    /** `add(listElement)`: splice `e` in between this node and its successor. */
    method Add(e: LinkedListElement<T>)
      modifies this, e, next
      ensures next == e && e.previous == this
      ensures data == old(data) && e.data == old(e.data)
      ensures old(next) == null && e != this ==>
        e.next == old(e.next) && previous == old(previous)
      ensures old(next) != null && e != this && e != old(next) && old(next) != this ==>
        && e.next == old(next) && old(next).previous == e
        && previous == old(previous) && old(next).next == old(next.next)
    {
      if next == null {
        next := e;
        next.previous := this;
      } else {
        next.previous := e;
        e.next := next;
        e.previous := this;
        next := e;
      }
    }

    /**
     * `remove()`: link the neighbours to each other, detach this node and
     * return its old successor. A detached node is left as it was.
     */
    method Remove() returns (r: LinkedListElement?<T>)
      modifies this, previous, next
      ensures r == old(next)
      ensures next == null && previous == null
      ensures data == old(data)
      ensures old(previous) != null && old(next) == null && old(previous) != this ==>
        old(previous).next == null
      ensures old(previous) == null && old(next) != null && old(next) != this ==>
        old(next).previous == null
      ensures old(previous) != null && old(next) != null && old(previous) != this && old(next) != this ==>
        old(previous).next == old(next) && old(next).previous == old(previous)
      ensures old(previous) != null && old(previous) != this && old(previous) != old(next) ==>
        old(previous).previous == old(previous.previous)
      ensures old(next) != null && old(next) != this && old(previous) != old(next) ==>
        old(next).next == old(next.next)
    {
      if previous == null && next == null {
        // a detached node: nothing to unlink
      } else if next == null {
        previous.next := null;
      } else if previous == null {
        next.previous := null;
      } else {
        next.previous := previous;
        previous.next := next;
      }
      var returnNext := next;
      next := null;
      previous := null;
      return returnNext;
    }
  }

  /**
   * Two-way consistency around one node: each neighbour points back. `add`
   * and `remove` keep it for the nodes they touch.
   */
  ghost predicate LinkedAround<T>(a: LinkedListElement<T>)
    reads a, a.next, a.previous
  {
    && (a.next != null ==> a.next.previous == a)
    && (a.previous != null ==> a.previous.next == a)
  }

  /** Inserting a fresh node after the tail of a consistent pair keeps both consistent. */
  method AppendAfterTail<T>(a: LinkedListElement<T>, v: T) returns (b: LinkedListElement<T>)
    requires a.next == null
    modifies a
    ensures fresh(b)
    ensures a.next == b && b.previous == a && b.next == null
    ensures b.data == Some(v)
  {
    b := new LinkedListElement();
    b.SetData(v);
    a.Add(b);
  }

  /** Inserting between two linked nodes and removing it again restores their links. */
  method InsertThenRemove<T>(a: LinkedListElement<T>, n: LinkedListElement<T>, v: T)
      returns (back: LinkedListElement?<T>)
    requires a != n && a.next == n && n.previous == a
    requires a.previous == null && n.next == null
    modifies a, n
    ensures back == n
    ensures a.next == n && n.previous == a
    ensures LinkedAround(a) && LinkedAround(n)
  {
    var b := new LinkedListElement();
    b.SetData(v);
    a.Add(b);
    assert b.next == n && n.previous == b && b.previous == a;
    back := b.Remove();
  }
}

=== FILE: math_util.dfy ===
/**
 * `MathUtil` of the java tree: `limit`, the four `boundAngle*` wrappers and the
 * angle differences built on them, over `real` rather than `Double`.
 *
 * The four wrappers share one shape: subtract the period while the angle is at
 * or above the top of the range, then add it while the angle is below the
 * bottom. `BoundAngle` is that loop once, for a range `[low, low + period)`;
 * `Wrap` is its closed-form specification.
 */
module MathUtil {

  /** `Math.PI`, the double nearest to pi. */
  const PI: real := 3.141592653589793

  function Abs(x: real): (r: real)
    ensures r >= 0.0 && (r == x || r == -x)
  {
    if x < 0.0 then -x else x
  }

  /** `Math.signum` on reals (no NaN). */
  function Sign(x: real): (r: real)
    ensures x > 0.0 <==> r == 1.0
    ensures x < 0.0 <==> r == -1.0
    ensures x == 0.0 <==> r == 0.0
  {
    if x > 0.0 then 1.0 else if x < 0.0 then -1.0 else 0.0
  }

  /**
   * `limit(value, limit)`: the value itself when its magnitude is at most
   * `limit`, otherwise `limit` with the value's sign.
   */
  function Limit(value: real, limit: real): (r: real)
    ensures Abs(value) <= limit ==> r == value
    ensures limit >= 0.0 ==> Abs(r) <= limit
    ensures limit > 0.0 ==> Sign(r) == Sign(value)
    ensures Abs(value) > limit && value != 0.0 ==> Abs(r) == Abs(limit)
    ensures value == 0.0 ==> r == 0.0
  {
    if Abs(value) > limit then limit * Sign(value) else value
  }

  /** With a non-negative limit, limiting twice is limiting once. */
  lemma {:induction false} LimitIdempotent(value: real, limit: real)
    requires limit >= 0.0
    ensures Limit(Limit(value, limit), limit) == Limit(value, limit)
  {
    var once := Limit(value, limit);
    assert Abs(once) <= limit;
  }

  /** With a negative limit every value is pushed to the opposite sign. */
  lemma {:induction false} LimitNegativeFlipsSign(value: real, limit: real)
    requires limit < 0.0 && value != 0.0
    ensures Sign(Limit(value, limit)) == -Sign(value)
  {
    assert Abs(value) > limit;
  }

  /** `d` is a whole multiple of `period`. */
  predicate IsMultiple(d: real, period: real)
    requires period > 0.0
  {
    (d / period).Floor as real == d / period
  }

  /** A whole number of periods is a multiple of the period. */
  lemma MultipleFromWitness(d: real, k: int, period: real)
    requires period > 0.0 && d == k as real * period
    ensures IsMultiple(d, period)
  {
    assert d / period == k as real;
  }

  /** A multiple of the period is the period times its quotient. */
  lemma WitnessOfMultiple(d: real, period: real)
    requires period > 0.0 && IsMultiple(d, period)
    ensures d == (d / period).Floor as real * period
  {
    assert (d / period) * period == d;
  }

  /**
   * The representative of `angle` in `[low, low + period)`: the input shifted
   * by a whole number of periods.
   */
  function Wrap(angle: real, low: real, period: real): (r: real)
    requires period > 0.0
    ensures low <= r < low + period
    ensures IsMultiple(r - angle, period)
  {
    var q := (angle - low) / period;
    var k := q.Floor;
    WrapStep(angle, low, period, q, k);
    angle - k as real * period
  }

  lemma WrapStep(angle: real, low: real, period: real, q: real, k: int)
    requires period > 0.0 && q == (angle - low) / period && k == q.Floor
    ensures low <= angle - k as real * period < low + period
    ensures IsMultiple((angle - k as real * period) - angle, period)
  {
    var f := q - k as real;
    var shift := k as real * period;
    assert q * period == angle - low;
    ScaledFraction(f, period);
    assert f * period == q * period - shift;
    MultipleFromWitness((angle - shift) - angle, -k, period);
  }

  /** `0 <= f < 1` scales to `0 <= f * p < p`. */
  lemma ScaledFraction(f: real, p: real)
    requires 0.0 <= f < 1.0 && p > 0.0
    ensures 0.0 <= f * p < p
  {
    assert (1.0 - f) * p > 0.0;
  }

  /** Two values in the same period-wide window that differ by whole periods are equal. */
  lemma {:induction false} WindowUnique(x: real, y: real, low: real, period: real)
    requires period > 0.0
    requires low <= x < low + period && low <= y < low + period
    requires IsMultiple(x - y, period)
    ensures x == y
  {
    WitnessOfMultiple(x - y, period);
    var k := ((x - y) / period).Floor;
    assert k == 0 by {
      if k >= 1 {
        assert false;
      } else if k <= -1 {
        assert false;
      }
    }
  }

  /** Whole-period shifts compose. */
  lemma {:induction false} MultipleAdd(d1: real, d2: real, period: real)
    requires period > 0.0
    requires IsMultiple(d1, period) && IsMultiple(d2, period)
    ensures IsMultiple(d1 + d2, period)
  {
    WitnessOfMultiple(d1, period);
    WitnessOfMultiple(d2, period);
    var k1 := (d1 / period).Floor;
    var k2 := (d2 / period).Floor;
    assert d1 + d2 == (k1 + k2) as real * period;
    MultipleFromWitness(d1 + d2, k1 + k2, period);
  }

  /** `Wrap` is the only value in the window congruent to the input. */
  lemma {:induction false} WrapCharacterized(angle: real, low: real, period: real, r: real)
    requires period > 0.0
    requires low <= r < low + period && IsMultiple(r - angle, period)
    ensures r == Wrap(angle, low, period)
  {
    var w := Wrap(angle, low, period);
    WitnessOfMultiple(w - angle, period);
    var k := ((w - angle) / period).Floor;
    MultipleFromWitness(angle - w, -k, period);
    MultipleAdd(r - angle, angle - w, period);
    assert (r - angle) + (angle - w) == r - w;
    WindowUnique(r, w, low, period);
  }

  /** `Wrap` leaves an angle already in the window alone. */
  lemma {:induction false} WrapIdentity(angle: real, low: real, period: real)
    requires period > 0.0 && low <= angle < low + period
    ensures Wrap(angle, low, period) == angle
  {
    MultipleFromWitness(angle - angle, 0, period);
    WrapCharacterized(angle, low, period, angle);
  }

  /** Shifting the input by whole periods does not change the wrapped value. */
  lemma {:induction false} WrapPeriodic(angle: real, k: int, low: real, period: real)
    requires period > 0.0
    ensures Wrap(angle + k as real * period, low, period) == Wrap(angle, low, period)
  {
    var w := Wrap(angle, low, period);
    WitnessOfMultiple(w - angle, period);
    var j := ((w - angle) / period).Floor;
    var shifted := angle + k as real * period;
    assert w - shifted == (j - k) as real * period;
    MultipleFromWitness(w - shifted, j - k, period);
    WrapCharacterized(shifted, low, period, w);
  }

  /**
   * The two naive loops: while at or above `low + period` subtract the period,
   * then while below `low` add it.
   */
  method BoundAngle(angle: real, low: real, period: real) returns (r: real)
    requires period >= 1.0
    ensures r == Wrap(angle, low, period)
  {
    r := angle;
    ghost var k: int := 0;
    while r >= low + period
      invariant r == angle + k as real * period
      decreases (r - low).Floor
    {
      r := r - period;
      k := k - 1;
    }
    while r < low
      invariant r == angle + k as real * period
      invariant r < low + period
      decreases (low - r).Floor
    {
      r := r + period;
      k := k + 1;
    }
    MultipleFromWitness(r - angle, k, period);
    WrapCharacterized(angle, low, period, r);
  }

  method BoundAngle0To360Degrees(angle: real) returns (r: real)
    ensures 0.0 <= r < 360.0
    ensures IsMultiple(r - angle, 360.0)
    ensures 0.0 <= angle < 360.0 ==> r == angle
  {
    r := BoundAngle(angle, 0.0, 360.0);
    if 0.0 <= angle < 360.0 {
      WrapIdentity(angle, 0.0, 360.0);
    }
  }

  method BoundAngleNeg180To180Degrees(angle: real) returns (r: real)
    ensures -180.0 <= r < 180.0
    ensures IsMultiple(r - angle, 360.0)
    ensures -180.0 <= angle < 180.0 ==> r == angle
  {
    r := BoundAngle(angle, -180.0, 360.0);
    if -180.0 <= angle < 180.0 {
      WrapIdentity(angle, -180.0, 360.0);
    }
  }

  method BoundAngle0To2PiRadians(angle: real) returns (r: real)
    ensures 0.0 <= r < 2.0 * PI
    ensures IsMultiple(r - angle, 2.0 * PI)
    ensures 0.0 <= angle < 2.0 * PI ==> r == angle
  {
    r := BoundAngle(angle, 0.0, 2.0 * PI);
    if 0.0 <= angle < 2.0 * PI {
      WrapIdentity(angle, 0.0, 2.0 * PI);
    }
  }

  method BoundAngleNegPiToPiRadians(angle: real) returns (r: real)
    ensures -PI <= r < PI
    ensures IsMultiple(r - angle, 2.0 * PI)
    ensures -PI <= angle < PI ==> r == angle
  {
    r := BoundAngle(angle, -PI, 2.0 * PI);
    if -PI <= angle < PI {
      WrapIdentity(angle, -PI, 2.0 * PI);
    }
  }

  /** The turn from `from` to `to`, in `[-180, 180)`. */
  method GetDifferenceInAngleDegrees(from: real, to: real) returns (r: real)
    ensures -180.0 <= r < 180.0
    ensures IsMultiple(r - (to - from), 360.0)
    ensures r == Wrap(to - from, -180.0, 360.0)
  {
    r := BoundAngleNeg180To180Degrees(to - from);
    WrapCharacterized(to - from, -180.0, 360.0, r);
  }

  /** The turn from `from` to `to`, in `[-pi, pi)`. */
  method GetDifferenceInAngleRadians(from: real, to: real) returns (r: real)
    ensures -PI <= r < PI
    ensures IsMultiple(r - (to - from), 2.0 * PI)
    ensures r == Wrap(to - from, -PI, 2.0 * PI)
  {
    r := BoundAngleNegPiToPiRadians(to - from);
    WrapCharacterized(to - from, -PI, 2.0 * PI, r);
  }
}

/** `MathUtil.clamp` of the kotlin tree. */
module KotlinMathUtil {

  function Max(a: real, b: real): real { if a >= b then a else b }

  function Min(a: real, b: real): real { if a <= b then a else b }

  /** `max(low, min(value, high))`. */
  function Clamp(value: real, low: real, high: real): (r: real)
    ensures low <= high ==> low <= r <= high
    ensures low <= value <= high ==> r == value
    ensures low > high ==> r == low
    ensures low <= high && value < low ==> r == low
    ensures low <= high && value > high ==> r == high
  {
    Max(low, Min(value, high))
  }

  /** Clamping a clamped value changes nothing, whatever the bounds. */
  lemma {:induction false} ClampIdempotent(value: real, low: real, high: real)
    ensures Clamp(Clamp(value, low, high), low, high) == Clamp(value, low, high)
  {
    var once := Clamp(value, low, high);
    if low <= high {
      assert low <= once <= high;
    } else {
      assert once == low;
    }
  }
}

=== FILE: parallel_group.dfy ===
/**
 * `ParallelCommandGroup` of the kotlin tree: runs all of its commands at once.
 * Its queries are conjunctions over the commands, and each of its actions is
 * the same call made on every command in order. It keeps no state of its own.
 */
module ParallelGroups {
  import opened CommandCalls

  class ParallelCommandGroup {
    const commands: seq<CommandRef>

    constructor (commands: seq<CommandRef>)
      ensures this.commands == commands
    {
      this.commands := commands;
    }

    /** `isInterruptible()`: every command is. */
    function IsInterruptible(interruptible: set<CommandRef>): (r: bool)
      ensures r <==> forall i :: 0 <= i < |commands| ==> commands[i] in interruptible
      ensures |commands| == 0 ==> r
    {
      forall c :: c in commands ==> c in interruptible
    }

    /** `isCompleted()`: every command is. */
    function IsCompleted(completed: set<CommandRef>): (r: bool)
      ensures r <==> forall i :: 0 <= i < |commands| ==> commands[i] in completed
      ensures |commands| == 0 ==> r
    {
      forall c :: c in commands ==> c in completed
    }

    /** One `forEach` over the commands, making the call `kind` on each. */
    method ForEach(kind: Kind) returns (calls: seq<Call>)
      ensures |calls| == |commands|
      ensures forall i :: 0 <= i < |calls| ==> calls[i] == Call(kind, commands[i])
    {
      calls := [];
      for i := 0 to |commands|
        invariant |calls| == i
        invariant forall j :: 0 <= j < i ==> calls[j] == Call(kind, commands[j])
      {
        calls := calls + [Call(kind, commands[i])];
      }
    }

    /** `start()`: starts every command once, in order. */
    method Start() returns (calls: seq<Call>)
      ensures calls == Each(Kind.Start, commands)
    {
      calls := ForEach(Kind.Start);
    }

    /**
     * `periodic()`: every command gets `periodic`, completed ones included,
     * and none is ended.
     */
    method Periodic() returns (calls: seq<Call>)
      ensures calls == Each(Kind.Periodic, commands)
      ensures forall i :: 0 <= i < |calls| ==> calls[i].kind != Kind.End
    {
      calls := ForEach(Kind.Periodic);
    }

    /** `end()`: ends every command once, in order. */
    method End() returns (calls: seq<Call>)
      ensures calls == Each(Kind.End, commands)
    {
      calls := ForEach(Kind.End);
    }

    /** `interrupt()`: interrupts every command once, in order. */
    method Interrupt() returns (calls: seq<Call>)
      ensures calls == Each(Kind.Interrupt, commands)
    {
      calls := ForEach(Kind.Interrupt);
    }
  }

  /**
   * The group test that expects a completed command to be ended and to get no
   * more `periodic` calls does not hold: with the middle command completed,
   * a tick still calls its `periodic` and ends nobody.
   */
  method CompletedChildStillTicks(c0: CommandRef, c1: CommandRef, c2: CommandRef)
      returns (tick: seq<Call>)
    ensures Call(Kind.Periodic, c1) in tick
    ensures Call(Kind.End, c1) !in tick
  {
    var group := new ParallelCommandGroup([c0, c1, c2]);
    tick := group.Periodic();
    assert tick[1] == Call(Kind.Periodic, c1);
  }
}

=== FILE: scheduler.dfy ===
/**
 * `SchedulerImpl` of the kotlin tree, single-threaded: the set of running
 * commands, the table of the subsystems each command holds, and the tick.
 * `HashSet`/`HashMap` iteration order is not specified, so each loop picks its
 * next element with a nondeterministic choice and every postcondition holds
 * for every order.
 */
module Scheduling {
  import opened CommandCalls

  /** Normal completion, or the `IllegalStateException` of `requires`. */
  datatype Outcome = Ok | IllegalState

  /** At most one command holds any subsystem. */
  ghost predicate Exclusive(table: map<CommandRef, set<Subsystem>>) {
    forall a, b :: a in table && b in table && a != b ==> table[a] !! table[b]
  }

  /** The commands whose entry holds `s`. */
  function HoldersOf(table: map<CommandRef, set<Subsystem>>, s: Subsystem): (r: set<CommandRef>)
    ensures forall k :: k in r <==> k in table && s in table[k]
  {
    set k | k in table && s in table[k]
  }

  /**
   * The table after a successful `requires(command, s)`: every holder of `s`
   * dropped, then `s` added to the entry of `command`, created empty if absent.
   */
  function Claim(table: map<CommandRef, set<Subsystem>>, command: CommandRef, s: Subsystem): map<CommandRef, set<Subsystem>>
  {
    var rest := table - HoldersOf(table, s);
    rest[command := (if command in rest then rest[command] else {}) + {s}]
  }

  /**
   * After a claim, `command` holds `s` and no other command does; every other
   * surviving entry is unchanged, and exclusivity is kept.
   */
  lemma {:induction false} ClaimIsExclusive(table: map<CommandRef, set<Subsystem>>, command: CommandRef, s: Subsystem)
    ensures command in Claim(table, command, s) && s in Claim(table, command, s)[command]
    ensures forall k :: k in Claim(table, command, s) && k != command ==> s !in Claim(table, command, s)[k]
    ensures forall k :: k in Claim(table, command, s) && k != command ==> k in table && Claim(table, command, s)[k] == table[k]
    ensures Exclusive(table) ==> Exclusive(Claim(table, command, s))
  {
    var t := Claim(table, command, s);
    var rest := table - HoldersOf(table, s);
    forall k | k in t && k != command
      ensures k in rest && t[k] == rest[k] && s !in t[k]
    {
    }
    if Exclusive(table) {
      forall a, b | a in t && b in t && a != b
        ensures t[a] !! t[b]
      {
        if a == command {
          assert t[b] == table[b];
          if command in rest {
            assert t[a] == table[a] + {s};
          }
        } else if b == command {
          assert t[a] == table[a];
          if command in rest {
            assert t[b] == table[b] + {s};
          }
        } else {
          assert t[a] == table[a] && t[b] == table[b];
        }
      }
    }
  }

  /** Dropping an entry keeps exclusivity. */
  lemma {:induction false} ClearKeepsExclusive(table: map<CommandRef, set<Subsystem>>, command: CommandRef)
    requires Exclusive(table)
    ensures Exclusive(table - {command})
  {
    var t := table - {command};
    forall a, b | a in t && b in t && a != b
      ensures t[a] !! t[b]
    {
      assert t[a] == table[a] && t[b] == table[b];
    }
  }

  class SchedulerImpl {
    var runningCommands: set<CommandRef>
    var commandRequirements: map<CommandRef, set<Subsystem>>

    constructor ()
      ensures runningCommands == {} && commandRequirements == map[]
    {
      runningCommands := {};
      commandRequirements := map[];
    }

    /** `run(command)`: start it, then add it to the running set. */
    method Run(command: CommandRef) returns (calls: seq<Call>)
      modifies this
      ensures calls == [Call(Start, command)]
      ensures runningCommands == old(runningCommands) + {command}
      ensures commandRequirements == old(commandRequirements)
    {
      calls := [Call(Start, command)];
      runningCommands := runningCommands + {command};
    }

    /**
     * `periodic()`: each running command that answers `isCompleted` when the
     * loop reaches it (`completedAtVisit`) is ended and loses its requirement
     * entry, each other one gets `periodic`; then the commands that answer
     * `isCompleted` when the running set is swept (`completedAtSweep`) leave
     * it. The two answers may differ, since `periodic` and `end` run in between.
     */
    method Periodic(completedAtVisit: set<CommandRef>, completedAtSweep: set<CommandRef>) returns (calls: seq<Call>)
      modifies this
      ensures runningCommands == old(runningCommands) - completedAtSweep
      ensures commandRequirements == old(commandRequirements) - (old(runningCommands) * completedAtVisit)
      ensures Targets(calls) == old(runningCommands) && OncePerTarget(calls)
      ensures forall i :: 0 <= i < |calls| ==>
        calls[i].kind == (if calls[i].target in completedAtVisit then End else Kind.Periodic)
      ensures Exclusive(old(commandRequirements)) ==> Exclusive(commandRequirements)
      ensures forall c :: c in old(runningCommands) && c in completedAtSweep && c !in completedAtVisit ==>
        && c !in runningCommands && Call(End, c) !in calls
        && (c in old(commandRequirements) ==> c in commandRequirements && commandRequirements[c] == old(commandRequirements[c]))
    {
      var remaining := runningCommands;
      calls := [];
      ghost var visited: set<CommandRef> := {};
      while remaining != {}
        invariant remaining !! visited && remaining + visited == old(runningCommands)
        invariant runningCommands == old(runningCommands)
        invariant commandRequirements == old(commandRequirements) - (visited * completedAtVisit)
        invariant Targets(calls) == visited && OncePerTarget(calls)
        invariant forall i :: 0 <= i < |calls| ==>
          calls[i].kind == (if calls[i].target in completedAtVisit then End else Kind.Periodic)
        invariant Exclusive(old(commandRequirements)) ==> Exclusive(commandRequirements)
        decreases remaining
      {
        var c :| c in remaining;
        AppendCall(calls, Call(End, c));
        AppendCall(calls, Call(Kind.Periodic, c));
        if c in completedAtVisit {
          calls := calls + [Call(End, c)];
          if Exclusive(commandRequirements) {
            ClearKeepsExclusive(commandRequirements, c);
          }
          commandRequirements := commandRequirements - {c};
        } else {
          calls := calls + [Call(Kind.Periodic, c)];
        }
        remaining := remaining - {c};
        visited := visited + {c};
      }
      runningCommands := set c | c in runningCommands && c !in completedAtSweep;
    }

    /**
     * `requires(command, s)`: walk the table; a holder of `s` that answers
     * `isInterruptible` is interrupted and its entry deleted on the spot, and
     * an uninterruptible one throws, leaving the deletions made so far. After
     * the walk, the running commands that are interruptible holders of `s` are
     * dropped (there are none left by then), and `s` is added to the entry of
     * `command`.
     */
    method Requires(command: CommandRef, s: Subsystem, interruptible: set<CommandRef>)
        returns (r: Outcome, calls: seq<Call>)
      modifies this
      ensures runningCommands == old(runningCommands)
      ensures r == IllegalState <==> exists k :: k in HoldersOf(old(commandRequirements), s) && k !in interruptible
      ensures r == Ok ==> commandRequirements == Claim(old(commandRequirements), command, s)
      ensures r == Ok ==> Targets(calls) == HoldersOf(old(commandRequirements), s)
      ensures r == IllegalState ==>
        && commandRequirements.Keys <= old(commandRequirements).Keys
        && (forall k :: k in commandRequirements ==> commandRequirements[k] == old(commandRequirements)[k])
        && Targets(calls) == old(commandRequirements).Keys - commandRequirements.Keys
        && Targets(calls) <= HoldersOf(old(commandRequirements), s) * interruptible
      ensures OncePerTarget(calls) && forall i :: 0 <= i < |calls| ==> calls[i].kind == Interrupt
      ensures Exclusive(old(commandRequirements)) ==> Exclusive(commandRequirements)
    {
      var keys := commandRequirements.Keys;
      calls := [];
      ghost var visited: set<CommandRef> := {};
      ghost var holders := HoldersOf(old(commandRequirements), s);
      while keys != {}
        invariant keys !! visited && keys + visited == old(commandRequirements).Keys
        invariant commandRequirements == old(commandRequirements) - (visited * holders)
        invariant forall k :: k in visited * holders ==> k in interruptible
        invariant Targets(calls) == visited * holders && OncePerTarget(calls)
        invariant forall i :: 0 <= i < |calls| ==> calls[i].kind == Interrupt
        invariant runningCommands == old(runningCommands)
        decreases keys
      {
        var k :| k in keys;
        if s in commandRequirements[k] {
          if k in interruptible {
            AppendCall(calls, Call(Interrupt, k));
            calls := calls + [Call(Interrupt, k)];
            commandRequirements := commandRequirements - {k};
          } else {
            r := IllegalState;
            assert old(commandRequirements) - (visited * holders) - commandRequirements.Keys == map[];
            SubtractedMapKeeps(old(commandRequirements), visited * holders);
            return;
          }
        }
        keys := keys - {k};
        visited := visited + {k};
      }
      assert visited * holders == holders;
      // the second sweep: no remaining entry holds `s`, so it drops nothing
      runningCommands := set c | c in runningCommands &&
        !(c in interruptible && c in commandRequirements && s in commandRequirements[c]);
      assert runningCommands == old(runningCommands);
      var entry := if command in commandRequirements then commandRequirements[command] else {};
      commandRequirements := commandRequirements[command := entry + {s}];
      r := Ok;
      if Exclusive(old(commandRequirements)) {
        ClaimIsExclusive(old(commandRequirements), command, s);
      }
    }

    /** `clearSubsystemRequirements(command)`: drop its entry. */
    method ClearSubsystemRequirements(command: CommandRef)
      modifies this
      ensures commandRequirements == old(commandRequirements) - {command}
      ensures runningCommands == old(runningCommands)
      ensures Exclusive(old(commandRequirements)) ==> Exclusive(commandRequirements)
    {
      if Exclusive(commandRequirements) {
        ClearKeepsExclusive(commandRequirements, command);
      }
      commandRequirements := commandRequirements - {command};
    }
  }

  lemma SubtractedMapKeeps(table: map<CommandRef, set<Subsystem>>, gone: set<CommandRef>)
    ensures (table - gone).Keys == table.Keys - gone
    ensures forall k :: k in table - gone ==> (table - gone)[k] == table[k]
  {
  }

  /**
   * A command that finishes is ended on that tick and on no later one: the
   * tick after it receives no call at all.
   */
  method CompletedCommandIsForgotten(c: CommandRef) returns (second: seq<Call>)
    ensures second == []
  {
    var scheduler := new SchedulerImpl();
    var calls := scheduler.Run(c);
    calls := scheduler.Periodic({}, {});
    assert calls == [Call(Periodic, c)] by {
      assert |calls| == 1 by { CardinalityOfTargets(calls); }
    }
    calls := scheduler.Periodic({c}, {c});
    assert scheduler.runningCommands == {};
    second := scheduler.Periodic({c}, {c});
    CardinalityOfTargets(second);
  }

  /**
   * The test that expects an interrupted command to receive no more `periodic`
   * calls does not hold: `requires` deletes the interrupted holder's entry
   * before the sweep of the running set looks it up, so the holder stays
   * running and the next tick calls its `periodic`.
   */
  method InterruptedCommandKeepsRunning(first: CommandRef, second: CommandRef, s: Subsystem)
      returns (interrupts: seq<Call>, tick: seq<Call>)
    requires first != second
    ensures interrupts == [Call(Interrupt, first)]
    ensures Call(Periodic, first) in tick
  {
    var scheduler := new SchedulerImpl();
    var r, calls := scheduler.Requires(first, s, {first});
    var empty: map<CommandRef, set<Subsystem>> := map[];
    assert HoldersOf(empty, s) == {};
    assert r == Ok;
    ClaimIsExclusive(empty, first, s);
    calls := scheduler.Run(first);
    assert HoldersOf(scheduler.commandRequirements, s) == {first};
    r, interrupts := scheduler.Requires(second, s, {first});
    assert r == Ok;
    assert Targets(interrupts) == {first};
    CardinalityOfTargets(interrupts);
    assert interrupts[0].target in Targets(interrupts);
    calls := scheduler.Run(second);
    tick := scheduler.Periodic({}, {});
    assert first in Targets(tick);
  }

  /**
   * A command that answers `isCompleted` false when the tick reaches it, and
   * true once the running set is swept (it finished during its own
   * `periodic`), leaves the running set without ever being ended, and its
   * requirement entry stays behind, so it still holds its subsystem.
   */
  method FinishedDuringTickIsNeverEnded(c: CommandRef, s: Subsystem)
      returns (tick: seq<Call>, next: seq<Call>, running: set<CommandRef>, holders: set<CommandRef>)
    ensures tick == [Call(Periodic, c)] && next == []
    ensures Call(End, c) !in tick + next
    ensures running == {} && holders == {c}
  {
    var scheduler := new SchedulerImpl();
    var r, calls := scheduler.Requires(c, s, {});
    var empty: map<CommandRef, set<Subsystem>> := map[];
    assert HoldersOf(empty, s) == {};
    calls := scheduler.Run(c);
    tick := scheduler.Periodic({}, {c});
    CardinalityOfTargets(tick);
    assert tick[0].target in Targets(tick);
    next := scheduler.Periodic({c}, {c});
    CardinalityOfTargets(next);
    running := scheduler.runningCommands;
    holders := HoldersOf(scheduler.commandRequirements, s);
  }

  /** A sequence that addresses each command once is as long as its set of targets. */
  lemma {:induction false} CardinalityOfTargets(calls: seq<Call>)
    requires OncePerTarget(calls)
    ensures |Targets(calls)| == |calls|
    decreases |calls|
  {
    if calls != [] {
      var init := calls[..|calls| - 1];
      CardinalityOfTargets(init);
      assert Targets(calls) == Targets(init) + {calls[|calls| - 1].target};
      assert calls[|calls| - 1].target !in Targets(init);
    }
  }
}

=== FILE: sequential_group.dfy ===
/**
 * `SequentialCommandGroup` of the kotlin tree: a cursor over its commands that
 * runs them one at a time.
 */
module SequentialGroups {
  import opened CommandCalls

  /** Normal completion, or the `ArrayIndexOutOfBoundsException` of an index past the end. */
  datatype Outcome = Ok | IndexOutOfBounds

  class SequentialCommandGroup {
    const commands: seq<CommandRef>
    var currentIndex: nat

    ghost predicate Valid()
      reads this
    {
      currentIndex <= |commands|
    }

    constructor (commands: seq<CommandRef>)
      ensures Valid() && this.commands == commands && currentIndex == 0
    {
      this.commands := commands;
      currentIndex := 0;
    }

    /** `isCompleted()`: the cursor has passed the last command. */
    predicate IsCompleted()
      reads this
    {
      currentIndex >= |commands|
    }

    /** `start()`: starts the first command only; an empty group has none. */
    method Start() returns (r: Outcome, calls: seq<Call>)
      ensures |commands| == 0 <==> r == IndexOutOfBounds
      ensures r == Ok ==> calls == [Call(Kind.Start, commands[0])]
      ensures r == IndexOutOfBounds ==> calls == []
    {
      if |commands| == 0 {
        return IndexOutOfBounds, [];
      }
      return Ok, [Call(Kind.Start, commands[0])];
    }

    /**
     * `periodic()`: while the current command runs, only it gets `periodic`;
     * once it answers `isCompleted`, it is ended, the cursor moves on by one and
     * the next command, if any, is started. A completed group does nothing.
     */
    method Periodic(completed: set<CommandRef>) returns (calls: seq<Call>)
      requires Valid()
      modifies this
      ensures Valid()
      ensures old(IsCompleted()) ==> calls == [] && currentIndex == old(currentIndex)
      ensures !old(IsCompleted()) && commands[old(currentIndex)] !in completed ==>
        calls == [Call(Kind.Periodic, commands[old(currentIndex)])] && currentIndex == old(currentIndex)
      ensures !old(IsCompleted()) && commands[old(currentIndex)] in completed ==>
        && currentIndex == old(currentIndex) + 1
        && calls == [Call(Kind.End, commands[old(currentIndex)])] +
             (if currentIndex < |commands| then [Call(Kind.Start, commands[currentIndex])] else [])
      ensures old(currentIndex) <= currentIndex <= old(currentIndex) + 1
    {
      calls := [];
      if currentIndex < |commands| {
        var currentCommand := commands[currentIndex];
        if currentCommand in completed {
          calls := calls + [Call(Kind.End, currentCommand)];
          currentIndex := currentIndex + 1;
          if currentIndex < |commands| {
            calls := calls + [Call(Kind.Start, commands[currentIndex])];
          }
        } else {
          calls := calls + [Call(Kind.Periodic, currentCommand)];
        }
      }
    }

    /** `end()`: ends the current command, which a completed group no longer has. */
    method End() returns (r: Outcome, calls: seq<Call>)
      requires Valid()
      ensures IsCompleted() <==> r == IndexOutOfBounds
      ensures r == Ok ==> calls == [Call(Kind.End, commands[currentIndex])]
      ensures r == IndexOutOfBounds ==> calls == []
    {
      if currentIndex >= |commands| {
        return IndexOutOfBounds, [];
      }
      return Ok, [Call(Kind.End, commands[currentIndex])];
    }
  }

  /**
   * A group whose every command completes on its first tick is walked through
   * in order: each tick ends one command and starts the next, and after
   * `|commands|` ticks the group is completed. `ticks` counts the `periodic`
   * calls made until the group reported itself completed.
   */
  method RunToCompletion(commands: seq<CommandRef>) returns (trace: seq<Call>, ticks: nat)
    requires |commands| > 0
    ensures ticks == |commands|
    ensures |trace| == 2 * |commands|
    ensures trace[0] == Call(Kind.Start, commands[0])
    ensures forall i :: 0 <= i < |commands| ==> trace[2 * i + 1] == Call(Kind.End, commands[i])
    ensures forall i :: 0 < i < |commands| ==> trace[2 * i] == Call(Kind.Start, commands[i])
  {
    var group := new SequentialCommandGroup(commands);
    var r, calls := group.Start();
    trace := calls;
    var all := set c | c in commands;
    ticks := 0;
    while !group.IsCompleted()
      invariant group.Valid() && group.commands == commands
      invariant ticks == group.currentIndex
      invariant group.currentIndex < |commands| ==> |trace| == 2 * group.currentIndex + 1
      invariant group.currentIndex == |commands| ==> |trace| == 2 * |commands|
      invariant trace[0] == Call(Kind.Start, commands[0])
      invariant forall i :: 0 <= i < group.currentIndex ==> trace[2 * i + 1] == Call(Kind.End, commands[i])
      invariant forall i :: 0 < i <= group.currentIndex && i < |commands| ==> trace[2 * i] == Call(Kind.Start, commands[i])
      modifies group
      decreases |commands| - group.currentIndex
    {
      calls := group.Periodic(all);
      trace := trace + calls;
      ticks := ticks + 1;
    }
  }
}

=== FILE: toggle.dfy ===
/**
 * `Toggle`: turns a held button into an on/off switch. The state is the
 * switch position `toggleOn` and the latch `togglePressed`; a `true` reading
 * either flips the switch and sets the latch or clears the latch, and a
 * `false` reading changes nothing.
 */
module Toggles {

  datatype ToggleState = ToggleState(toggleOn: bool, togglePressed: bool)

  /** One `updateToggle(value)` on the state. */
  function Update(s: ToggleState, value: bool): (r: ToggleState)
    ensures !value ==> r == s
    ensures value && !s.togglePressed ==> r.toggleOn == !s.toggleOn && r.togglePressed
    ensures value && s.togglePressed ==> r.toggleOn == s.toggleOn && !r.togglePressed
  {
    if !value then s
    else if !s.togglePressed then ToggleState(!s.toggleOn, true)
    else ToggleState(s.toggleOn, false)
  }

  /** The state after feeding the readings in order. */
  function Feed(s: ToggleState, values: seq<bool>): ToggleState
    decreases |values|
  {
    if values == [] then s else Feed(Update(s, values[0]), values[1..])
  }

  /** Readings of `false` never touch the state, the latch included. */
  lemma {:induction false} FalseReadingsChangeNothing(s: ToggleState, values: seq<bool>)
    requires forall i :: 0 <= i < |values| ==> !values[i]
    ensures Feed(s, values) == s
    decreases |values|
  {
    if values != [] {
      FalseReadingsChangeNothing(s, values[1..]);
    }
  }

  /** `n` readings of `true`. */
  function Held(n: nat): (r: seq<bool>)
    ensures |r| == n && forall i :: 0 <= i < n ==> r[i]
  {
    if n == 0 then [] else [true] + Held(n - 1)
  }

  /**
   * A run of `n` consecutive `true` readings from a released latch flips the
   * switch on every other reading: `(n + 1) / 2` flips in all, and the latch
   * is left set exactly when `n` is odd.
   */
  lemma {:induction false} HeldButtonFlipsEveryOtherReading(on: bool, n: nat)
    ensures Feed(ToggleState(on, false), Held(n)) ==
      ToggleState(if ((n + 1) / 2) % 2 == 1 then !on else on, n % 2 == 1)
    decreases n
  {
    if n >= 2 {
      assert Held(n)[0] && Held(n)[1..] == Held(n - 1);
      assert Held(n - 1)[0] && Held(n - 1)[1..] == Held(n - 2);
      assert Feed(ToggleState(on, false), Held(n)) == Feed(ToggleState(!on, true), Held(n - 1));
      assert Feed(ToggleState(!on, true), Held(n - 1)) == Feed(ToggleState(!on, false), Held(n - 2));
      HeldButtonFlipsEveryOtherReading(!on, n - 2);
      assert (n - 2 + 1) / 2 == (n + 1) / 2 - 1;
    } else if n == 1 {
      assert Held(1)[1..] == Held(0);
    }
  }

  class Toggle {
    var toggleOn: bool
    var togglePressed: bool

    constructor ()
      ensures !toggleOn && !togglePressed
    {
      toggleOn := false;
      togglePressed := false;
    }

    function State(): ToggleState
      reads this
    {
      ToggleState(toggleOn, togglePressed)
    }

    /** `updateToggle(value)`: returns the switch position after the update. */
    method UpdateToggle(value: bool) returns (r: bool)
      modifies this
      ensures State() == Update(old(State()), value)
      ensures r == toggleOn
    {
      if value {
        if !togglePressed {
          toggleOn := !toggleOn;
          togglePressed := true;
        } else {
          togglePressed := false;
        }
      }
      return toggleOn;
    }
  }
}

=== FILE: util_set.dfy ===
/**
 * The library's own `Set`: a `Vector` that refuses duplicates and enumerates
 * its elements in first-insertion order. The pure functions `Insert` and
 * `InsertAll` are the specification of the two `add` overloads; the command
 * framework reuses them for a command's requirement list.
 */
module UtilSet {

  /** No element occurs twice. */
  ghost predicate NoDuplicates<T>(s: seq<T>) {
    forall i, j :: 0 <= i < j < |s| ==> s[i] != s[j]
  }

  /** `add(element)`: append `e` unless it is already present. */
  function Insert<T(==)>(s: seq<T>, e: T): (r: seq<T>)
    ensures e in r
    ensures s <= r
    ensures |r| <= |s| + 1
    ensures e in s <==> r == s
  {
    if e in s then s else s + [e]
  }

  /** `add(set)`: insert the elements of `t`, one by one, in their order. */
  function InsertAll<T(==)>(s: seq<T>, t: seq<T>): seq<T>
    decreases |t|
  {
    if t == [] then s else InsertAll(Insert(s, t[0]), t[1..])
  }

  lemma {:induction false} InsertKeepsNoDuplicates<T>(s: seq<T>, e: T)
    requires NoDuplicates(s)
    ensures NoDuplicates(Insert(s, e))
  {
    if e !in s {
      var r := s + [e];
      forall i, j | 0 <= i < j < |r| ensures r[i] != r[j] {
        if j == |s| {
          assert r[i] == s[i];
        }
      }
    }
  }

  /** `InsertAll` keeps the old elements as a prefix, in their order. */
  lemma {:induction false} InsertAllExtends<T>(s: seq<T>, t: seq<T>)
    ensures s <= InsertAll(s, t)
    decreases |t|
  {
    if t != [] {
      InsertAllExtends(Insert(s, t[0]), t[1..]);
    }
  }

  /** `InsertAll` computes the union of the two element sets. */
  lemma {:induction false} InsertAllIsUnion<T>(s: seq<T>, t: seq<T>)
    ensures (set x | x in InsertAll(s, t)) == (set x | x in s) + (set x | x in t)
    decreases |t|
  {
    if t != [] {
      InsertAllIsUnion(Insert(s, t[0]), t[1..]);
      assert (set x | x in t) == {t[0]} + (set x | x in t[1..]) by {
        forall x | x in t ensures x == t[0] || x in t[1..] {
          var i :| 0 <= i < |t| && t[i] == x;
          if i > 0 { assert t[1..][i - 1] == x; }
        }
      }
    }
  }

  /** An element is in `InsertAll(s, t)` exactly when it is in `s` or in `t`. */
  lemma {:induction false} InsertAllContains<T>(s: seq<T>, t: seq<T>)
    ensures forall x :: x in InsertAll(s, t) <==> x in s || x in t
    decreases |t|
  {
    if t != [] {
      InsertAllContains(Insert(s, t[0]), t[1..]);
      assert t == [t[0]] + t[1..];
    }
  }

  lemma {:induction false} InsertAllKeepsNoDuplicates<T>(s: seq<T>, t: seq<T>)
    requires NoDuplicates(s)
    ensures NoDuplicates(InsertAll(s, t))
    decreases |t|
  {
    if t != [] {
      InsertKeepsNoDuplicates(s, t[0]);
      InsertAllKeepsNoDuplicates(Insert(s, t[0]), t[1..]);
    }
  }

  class Set<T(==)> {
    /** The backing vector. */
    var elements: seq<T>

    ghost predicate Valid()
      reads this
    {
      NoDuplicates(elements)
    }

    constructor ()
      ensures Valid() && elements == []
    {
      elements := [];
    }

    method Add(element: T)
      requires Valid()
      modifies this
      ensures Valid()
      ensures elements == Insert(old(elements), element)
    {
      InsertKeepsNoDuplicates(elements, element);
      if element in elements {
        return;
      }
      elements := elements + [element];
    }

    /** `add(s)`: walks the enumeration of `s` and adds each element. */
    method AddAll(s: Set<T>)
      requires Valid() && s.Valid()
      modifies this
      ensures Valid()
      ensures elements == InsertAll(old(elements), old(s.elements))
    {
      var source := s.elements;
      var i := 0;
      while i < |source|
        invariant 0 <= i <= |source|
        invariant Valid()
        invariant InsertAll(old(elements), source) == InsertAll(elements, source[i..])
      {
        assert source[i..][1..] == source[i + 1..];
        Add(source[i]);
        i := i + 1;
      }
    }

    method Clear()
      modifies this
      ensures Valid() && elements == []
    {
      elements := [];
    }

    /** `contains(element)`: whether some position of the enumeration holds it. */
    predicate Contains(element: T): (r: bool)
      reads this
      ensures r <==> exists i :: 0 <= i < |elements| && elements[i] == element
    {
      element in elements
    }

    /** The enumeration, in first-insertion order. */
    function GetElements(): (r: seq<T>)
      reads this
      ensures Valid() ==> NoDuplicates(r)
      ensures forall i :: 0 <= i < |r| ==> Contains(r[i])
    {
      elements
    }
  }
}
